=== FILE: README.md ===
# 3Box spaces and identity, modelled in Dafny

This project models the core of the 3Box JavaScript client:

- a **space**: a named key-value store with a public partition (keys under
  `pub_`) and an encrypted private partition (keys under `priv_` + a hash of
  the plaintext key);
- the space's `open()` step, which derives a keyring for the space once, with
  consent, and reconciles the space's entry in the user's root index;
- the space's **thread** handles: a cache keyed by thread address, joined by
  name or by full address, and subscriptions kept as `thread-<address>`
  records in the public partition;
- the **3ID identity** (`ThreeId`): its serialised state, the per-space
  keyrings, local-storage persistence under `serialized3id_<address>`, login
  and logout, and the two bootstrap paths (from an Ethereum address, from an
  authentication delegate).

Modules, one per concern:

| module | file | what it holds |
|---|---|---|
| `Base` | base.dfy | `Option`, `Result`, the error kinds, `Show` (how JavaScript renders a possibly-undefined string) |
| `Strings` | strings.dfy | `indexOf`, `split`, `join`, array indexing that may yield undefined, ASCII `toLowerCase` |
| `KeyValue` | key_value.dfy | JSON-like values and their truthiness, the store as a map, `setMultiple` as ordered writes |
| `Reducers` | reducers.dfy | `publicStoreReducer` and `privateStoreReducer`, and how the two partitions stay apart |
| `Names` | names.dfy | the store names of spaces and threads and how they split on `.` |
| `RootIndex` | root_index.dfy | the root-index entries and the reconciliation done by `open()` |
| `Identity` | identity.dfy | the `ThreeId` class |
| `Spaces` | spaces.dfy | the `Space` class |

Everything is pure: each asynchronous method becomes a function from the
state it reads (the store contents, the thread cache, local storage, the
identity) to the state it leaves and its result. A thrown `Error` becomes an
`Err` result. The rest of the world is a parameter:

- the hashing and encryption primitives are the `Crypto` record;
- consent signatures and seed derivation are the `Auth` record;
- OrbitDB address validation is an `isValid` predicate;
- a thread's address resolution is an `addressOf` function;
- the root-index hash of an added entry is a `newHash` argument;
- the published identity's fingerprint is a `fingerprint` argument;
- the iteration order of an object's keys is an `order` sequence that lists
  each key exactly once.

The only assumption made about these parameters is `Reducers.Sound`: decrypting
an encrypted envelope with the same space name gives the envelope back. It is
stated as a precondition wherever a read-back depends on it.

A JavaScript `undefined` key is `None`. Where the source concatenates it into a
string, the result contains the text `undefined`, as JavaScript produces it.
So `public.get(undefined)` reads `pub_undefined`, and so on.

## Model

| member | source | states |
|---|---|---|
| `Reducers.PrefixesDisjoint` | src/space.js:162-201 | no underlying key is both public (`pub_`) and private (`priv_`) |
| `Reducers.PublicSet` | src/space.js:166-169 | an undefined key is rejected; otherwise `get` of the key returns the value and every other underlying key is untouched |
| `Reducers.PublicGetAgreesWithAll` | src/space.js:164 | `public.get(key)` returns what `public.all()` lists under the key (an undefined key under "undefined"), or nothing |
| `Reducers.PublicRemove` | src/space.js:175-178 | an undefined key is rejected; otherwise `get` of the key returns nothing and every other underlying key is untouched |
| `Reducers.PublicSetMultiple` | src/space.js:170-174 | unequal lengths are rejected; the last write to each key is what `get` returns, and keys not written are untouched |
| `Reducers.PublicAll` | src/space.js:188-196 | the result has key `k` exactly when the store has `pub_k`, with the same value |
| `Reducers.PublicLog` | src/space.js:179-187 | every public log entry appears with its prefix stripped, and every entry returned comes from a public log entry |
| `Reducers.PublicLogAppend` | src/space.js:179-187 | the public log keeps log order: the log of `a + b` is the log of `a` followed by the log of `b` |
| `Reducers.DbKey` | src/space.js:202-205 | an undefined key is rejected with `InvalidKey`; otherwise the underlying key is `priv_` + hash(key, space) |
| `Reducers.PrivateGet` | src/space.js:209-224 | an undefined key is rejected; a truthy entry under the hashed key is decrypted and its value returned; otherwise null |
| `Reducers.PrivateGetReadsView` | src/space.js:209-224 | on a well-formed store, `get(k)` of a key the reference view lists with a truthy entry returns the view's value, and a key with nothing at its hash returns null and is not in the view |
| `Reducers.PrivateSet` | src/space.js:226 | the encrypted envelope `{key, value}` is stored under the hashed key; with sound primitives `get` then returns the value; other underlying keys are untouched |
| `Reducers.PrivateRemove` | src/space.js:235 | an undefined key is rejected; afterwards nothing is stored under the hashed key, `get` returns null, and other underlying keys are untouched |
| `Reducers.PrivateSetMultiple` | src/space.js:227-234 | the length check comes before the undefined-key check; with sound primitives each last write reads back; every underlying key the batch does not write is untouched |
| `Reducers.SealsReadBack` | src/space.js:227-234 | with sound primitives, `get` of each key a batch wrote last returns its value |
| `Reducers.PrivateAll` | src/space.js:249-269 | every private entry's decrypted key is listed, and every listed key and value comes from a private entry that decrypts to it |
| `Reducers.PrivateLog` | src/space.js:236-248 | every private log entry appears decrypted, and every entry returned decrypts from a private log entry |
| `Reducers.PrivateLogAppend` | src/space.js:236-248 | the private log keeps log order |
| `Reducers.SamePrivatePartition` | src/space.js:249-269 | stores that agree on their private entries give the same private view |
| `Reducers.SamePublicPartition` | src/space.js:188-196 | stores that agree on their public entries give the same `public.all()` |
| `Reducers.PrivateWritesInvisiblePublicly` | src/space.js:226-235 | `private.set` and `private.remove` leave `public.all()` unchanged |
| `Reducers.PrivateSetMultipleInvisiblePublicly` | src/space.js:227-234 | `private.setMultiple` leaves `public.all()` unchanged |
| `Reducers.PublicWritesInvisiblePrivately` | src/space.js:166-178 | `public.set` and `public.remove` leave the private view unchanged |
| `Reducers.PublicSetMultipleInvisiblePrivately` | src/space.js:170-174 | `public.setMultiple` leaves the private view unchanged |
| `Reducers.PrivateWritesKeepWellFormed` | src/space.js:226-235 | with sound primitives, `private.set` and `private.remove` keep every private entry at the hash of the key it carries |
| `Reducers.PrivateSetMultipleKeepsWellFormed` | src/space.js:227-234 | with sound primitives, `private.setMultiple` keeps the private partition well formed |
| `Reducers.PrivateAllIsView` | src/space.js:249-269 | on a well-formed store, `private.all()` in any iteration order equals the reference private view (plaintext key to value) |
| `Reducers.PrivateSetView` | src/space.js:226 | with sound primitives on a well-formed store, `private.set(k, v)` updates the reference view at `k` to `v`; every key whose hash differs from `k`'s keeps its membership and its value |
| `KeyValue.PutAll` | src/space.js:173 | ordered writes: the keys are the old keys plus the written ones, unwritten keys keep their values, and each key holds its last written value |
| `Names.SpaceNameSegments` | src/space.js:6 | the store name of space `name` (dot-free) splits on `.` into `3box`, `space`, `name`, `keyvalue` |
| `Names.NameToSpaceName` | src/space.js:6 | the store name is `3box.space.` + name + `.keyvalue`, and the name sits at a fixed offset, so distinct names give distinct stores |
| `Names.NamesToThreadName` | src/space.js:7 | the thread store name is `3box.thread.` followed by space name, `.`, thread name; for dot-free names it splits on `.` into `3box`, `thread`, the space name and the thread name, so both names can be read back |
| `Names.ThreadAddressSegments` | src/space.js:7 | a thread address `<prefix>3box.thread.<space>.<thread>` (dot-free parts) has the space as segment 2 and the thread as segment 3 |
| `Strings.SplitJoin` | src/space.js:98-99 | `split` yields at least one piece, and joining the pieces with the separator gives the string back |
| `Strings.LowerIdempotent` | src/3id/index.js:140 | lower-casing an address twice is lower-casing it once |
| `RootIndex.DeleteMembers` | src/space.js:50 | deleting a hash keeps exactly the entries that carry another hash |
| `RootIndex.FindFrom` | src/space.js:46 | the entry found is the first whose address contains the space's store name |
| `RootIndex.Reconcile` | src/space.js:45-52 | with no entry for the space a typed entry is added; a legacy (untyped) first entry is replaced; a typed first entry is kept; nothing else is added |
| `RootIndex.ReconcileCount` | src/space.js:45-52 | reconciliation never adds a second entry for a space: the count becomes one when it was zero and stays as it was otherwise |
| `RootIndex.ReconcileKeepsOtherSpaces` | src/space.js:45-52 | entries of other spaces survive reconciliation |
| `RootIndex.ReconcileIdempotent` | src/space.js:45-52 | from at most one entry, reconciliation leaves exactly one typed entry, and reconciling again changes nothing |
| `Spaces.Open` | src/space.js:38-63 | an open space is left alone; otherwise the identity and local storage are exactly those `initKeyringByName` leaves, consent is reported exactly when the space had no keyring, the root index is reconciled, and the space is marked open |
| `Spaces.OpenTwice` | src/space.js:38-39 | opening twice asks for no second consent and changes nothing more |
| `Spaces.OpenRegistersSpaceOnce` | src/space.js:43-52 | opening a space whose store address contains its store name, against a root index with unique hashes and at most one entry for the space, leaves exactly one typed root-index entry for it, stable under later opens |
| `Spaces.OpenedKeyringResolves` | src/space.js:41-61 | for a dot-free space name (and a fingerprint other than `3box`), after opening, the identity resolves the space's store name to the keyring derived for the space |
| `Spaces.JoinThread` | src/space.js:76-85 | the handle is cached under the address resolved from the thread's store name, members flag and moderator; a cached handle there is returned unchanged; otherwise a new handle named `3box.thread.<space>.<name>` with that moderator and members flag is cached there |
| `Spaces.Moderator` | src/space.js:78 | the first moderator is the option when truthy and the space's sub-DID otherwise |
| `Spaces.JoinThreadByAddress` | src/space.js:96-107 | an invalid address is rejected first, then an address whose segment 2 is another space; a cached handle is returned; otherwise a new handle named after segment 3, with the members flag and first moderator of the options and auto-subscription unless `noAutoSub`, is cached under the address |
| `Spaces.JoinKeepsWellKeyed` | src/space.js:81-105 | both ways of joining keep every cached handle under its own address |
| `Spaces.JoinByAddressTwice` | src/space.js:101 | joining the same address twice gives the same handle and changes nothing the second time |
| `Spaces.JoinByNameThenAddress` | src/space.js:76-107 | joining by the resolved address after joining by name gives the same handle |
| `Spaces.JoinOwnThreadAddress` | src/space.js:97-103 | for dot-free prefix, space and thread names, a valid thread address of this space is accepted and names the thread by its own segment |
| `Spaces.JoinOtherSpaceRefused` | src/space.js:98-100 | for dot-free prefix, space and thread names, a valid thread address of another space is refused |
| `Spaces.DottedSpaceAcceptsForeignThread` | src/space.js:98-100 | as written, for dot-free `a`, `b`, `t`, space `a` accepts the thread `t` of space `a.b` and names it after `b` |
| `Spaces.DottedSpaceRefusesOwnThread` | src/space.js:98-100 | as written, space `a.b` refuses its own thread `t` with `CrossSpace` |
| `Spaces.JoinThreadByAddressChecked` | src/space.js:96-107 | `joinThreadByAddress` with the space compared against every segment between `thread` and the last one: accepted exactly when the address is valid, has at least four segments and those segments join back to the space name; a new handle is named after the last segment |
| `Spaces.CheckedThreadAddress` | src/space.js:98-100 | with the corrected check, a valid address `<prefix>3box.thread.<s>.<t>` (dot-free prefix and thread name, any space name) is accepted exactly when `s` is this space, and a new handle is named after `t` |
| `Spaces.CheckedAgreesOnDotFreeNames` | src/space.js:96-107 | for dot-free names the corrected check and the source's give the same result, so the join lemmas above carry over |
| `Spaces.SubscribeThread` | src/space.js:118-125 | an invalid address is rejected, then an unopened space; afterwards a truthy `thread-<address>` record exists, written as config plus address only when none was there; nothing else changes |
| `Spaces.UnsubscribeThread` | src/space.js:132-137 | an unopened space is rejected; afterwards no truthy record exists, removed only when one was there; nothing else changes |
| `Spaces.SubscribeIdempotent` | src/space.js:122-124 | subscribing again, with any config, changes nothing |
| `Spaces.UnsubscribeIdempotent` | src/space.js:134-136 | unsubscribing again changes nothing |
| `Spaces.SubscribeThenUnsubscribe` | src/space.js:118-137 | unsubscribing after subscribing leaves no record under the address's key |
| `Spaces.ThreadKey` | src/space.js:120 | the record key is `thread-` followed by the address, which stays recoverable after the prefix |
| `Spaces.SubscriptionRecord` | src/space.js:123 | the record holds every config field except `address`, which is set to the thread address |
| `Spaces.Subscriptions` | src/space.js:146-155 | the listed records are exactly the records, in iteration order, whose keys start with `thread` and carry a valid address after `thread-` |
| `Spaces.SubscriptionsAppend` | src/space.js:146-155 | one more key in iteration order appends its record, and only when it is a subscription key: the list is exactly the subscription records in iteration order, one per key |
| `Spaces.SubscribedThreads` | src/space.js:144-156 | a value is listed exactly when some public record with a subscription key holds it |
| `Spaces.SubscribedIsListed` | src/space.js:118-156 | a subscription made by `subscribeThread` for an address containing no `thread-` is listed by `subscribedThreads` (an address containing `thread-` is cut at it by `split`, line 149) |
| `Identity.Init3id` | src/3id/index.js:76-88 | the management address is kept only when truthy, lower-cased; the main keyring and one keyring per stored space seed are restored |
| `Identity.Serialize` | src/3id/index.js:64-74 | the serialised state lists a seed for exactly the identity's space names |
| `Identity.SerializeRoundTrip` | src/3id/index.js:64-88 | restoring a serialised normalised identity gives it back |
| `Identity.InitSerializeRoundTrip` | src/3id/index.js:64-88 | serialising a restored state keeps its seeds, and restoring again changes nothing |
| `Identity.Construct` | src/3id/index.js:42-50 | the identity is restored from the state, and persisted under its address only when it has one |
| `Identity.ConstructPersistsRestorable` | src/3id/index.js:46-49 | the persisted record restores the constructed identity |
| `Identity.InitKeyringByName` | src/3id/index.js:118-129 | consent is asked exactly when the space has no keyring; then a keyring from the consent signature is added and the whole state persisted; nothing else changes |
| `Identity.InitKeyringOnce` | src/3id/index.js:118-129 | a second call for the same space asks for nothing and changes nothing, and the persisted record restores the identity |
| `Identity.GetKeyringBySpaceName` | src/3id/index.js:109-116 | segment 0 equal to the fingerprint gives the main keyring; otherwise exactly `keyrings[segment 2]`, undefined when there is none |
| `Identity.FingerprintNamesUseMainKeyring` | src/3id/index.js:110-112 | any name starting with the fingerprint and a dot gives the main keyring |
| `Identity.Logout` | src/3id/index.js:131-133 | exactly the record of the current management address is removed |
| `Identity.LogoutLogsOut` | src/3id/index.js:131-137 | after logout the identity's own address is not logged in |
| `Identity.IsLoggedIn` | src/3id/index.js:135-137 | a non-empty address is logged in exactly when a record exists under the key an identity with that management address is persisted under |
| `Identity.IsLoggedInCaseInsensitive` | src/3id/index.js:135-137 | an address and its lower-cased form are logged in alike |
| `Identity.GetIdFromEthAddress` | src/3id/index.js:139-159 | a stored record is reused without consent; otherwise one consent gives a fresh identity with no space keyrings; either way a non-empty address is logged in afterwards, and local storage changes only by the record written under the identity's storage key |
| `Identity.GetIdFromEthAddressTwice` | src/3id/index.js:139-159 | bootstrapping the same non-empty address again asks for no consent and yields the same identity |
| `Identity.GetIdFromAuth` | src/3id/index.js:161-171 | the delegate's seed gives an identity with no management address and no space keyrings, and nothing is persisted |
| `Identity.AuthIdentityPersistsUnderUndefined` | src/3id/index.js:118-137 | an identity from the delegate persists its first space keyring under `serialized3id_undefined` |

## Left out

- The `getMetadata` operations of both reducers and the `metadata` option of `get` and `all`: they pass store metadata through unchanged.
- The browser iframe, the authentication pop-up and `postMessage`: `getIdFromAuth` receives the delegate's seed as an argument.
- `signJWT`, `getDid`, `_initMuport` and publication of the identity document: its outcome is the `fingerprint` argument.
- The internals of hashing, encryption, HD-key derivation and `Keyring`: they are the `Crypto` and `Auth` parameters, and a keyring is represented by its seed.
- The `Thread` class, thread loading and address resolution: a handle is the record the space caches, and `addressOf` stands for `_getThreadAddress()`.
- Store loading and replication (`_load`, `_sync`, `numEntriesMessages`, `onSyncDone`): the store contents are taken as already synchronised.
- JSON parsing and serialisation failures, and malformed serialised state: serialised state is a record.
- The global `ethereum` object used by `getIdFromEthAddress`: consent signatures come from the `Auth` parameter.
- Property names that JavaScript objects inherit (`constructor`, `__proto__`): the store and the keyring table are plain maps.
- Floating-point numbers: a numeric value is an integer.
- Decryption failure: `decrypt` is total, and `Reducers.Sound` is the only assumption about it.
- The write-back of the default moderator into the caller's `opts` object in `joinThread` (src/space.js:78): options are a value, so a reused `opts` object does not carry the moderator into a later join.
- The in-place rewriting of `key` and `value` on the entry objects that `store.log()` returned, in `public.log` and `private.log` (src/space.js:182, 242-243): the logs are values, so only the returned log is modelled.
- Concurrency between the awaited steps of one operation: each operation is atomic.
- `Strings.Lower`: lower-cases ASCII letters only; JavaScript's `toLowerCase` also folds non-ASCII letters.
- `Spaces.Subscriptions`: its own contract states membership of the listed records; order and multiplicity are fixed by `Spaces.SubscriptionsAppend`.
- `Spaces.Open`, `Spaces.JoinThread`: the space's sub-DID (`this._3id.getSubDID(this._name)`, src/space.js:35 and 78) is a parameter `subDid`. The `ThreeId` class modelled here (src/3id/index.js:41-172) defines no `getSubDID`, so as written that call would throw when `open()` adds or replaces the root-index entry and when `joinThread` has no truthy `firstModerator`; the model assumes the DID is available and lets both succeed.
- `Reducers.PrivateAll`: the iteration order of `for…in` is the `order` argument; JavaScript's own key-ordering rules are not modelled.
- `Spaces.SubscribedThreads`: `isValid` is applied only to a present segment; validation of `undefined` is taken to be false.
- `Identity.Serialize`: the keyring's `serialize()` is taken to return the seed it was built from.

## Findings

| source | as written | input that shows it | evidently intended | confidence | as-written member | corrected member |
|---|---|---|---|---|---|---|
| src/space.js:98-100 | `joinThreadByAddress` takes the thread's space from `.`-segment 2 and its name from segment 3 | space `a` joining a valid `<prefix>3box.thread.a.b.t` (thread `t` of space `a.b`) is accepted and names the thread `b`; space `a.b` refuses the same address with `CrossSpace` | an address is accepted exactly when it belongs to this space, whatever dots the space name holds | not executed; medium: nothing in the source forbids dots in a space name | `Spaces.DottedSpaceAcceptsForeignThread`, `Spaces.DottedSpaceRefusesOwnThread` on `Spaces.JoinThreadByAddress` | `Spaces.JoinThreadByAddressChecked`, with `Spaces.CheckedThreadAddress` |

`Spaces.JoinThreadByAddress` stays the model of the source as written, and the
join lemmas are stated on it. `Spaces.CheckedAgreesOnDotFreeNames` shows that
the corrected check gives the same result whenever the names are dot-free, so
those lemmas hold for the corrected check under the same dot-free
preconditions. `getKeyringBySpaceName` (src/3id/index.js:114) reads segment 2
in the same way, so a dotted space name resolves the wrong keyring; that is why
`Spaces.OpenedKeyringResolves` is stated for dot-free names.

=== FILE: base.dfy ===
/** Shared vocabulary of the model: optional values (JavaScript `undefined`),
    results that carry the errors the modelled code throws, and the way
    JavaScript renders `undefined` when it is concatenated into a string. */
module Base {

  /** `None` stands for JavaScript's `undefined`. */
  datatype Option<+T> = None | Some(value: T)

  /** The exceptions thrown by the store reducers and the Space class. */
  datatype Error =
    | InvalidKey       // throwIfUndefined(key, 'key')
    | LengthMismatch   // throwIfNotEqualLenArrays(keys, values)
    | InvalidAddress   // an address that OrbitDBAddress.isValid rejects
    | CrossSpace       // joinThreadByAddress on a thread of another space
    | NotOpen          // `space.public` is still null because open() has not run

  datatype Result<+T> = Ok(value: T) | Err(error: Error)

  /** The text JavaScript produces for `'' + x` when x is a string or undefined. */
  function Show(o: Option<string>): string
  {
    match o
    case Some(s) => s
    case None => "undefined"
  }
}

=== FILE: identity.dfy ===
/** The identity (3ID) state machine: a main keyring, one keyring per space,
    a management address normalised to lower case, and the serialised
    record kept in local storage under "serialized3id_" + address. Key
    derivation, consent signatures and publication of the identity document
    are parameters: the model sees only their results. */
module Identity {
  import opened Base
  import opened Strings

  const StorageKey: string := "serialized3id_"

  /** A keyring, represented by the seed it is built from (`new Keyring(seed)`;
      `serialize()` gives the seed back). */
  datatype Keyring = Keyring(seed: string)

  /** The persisted record `{ managementAddress, seed, spaceSeeds }`. */
  datatype State = State(managementAddress: Option<string>, seed: string, spaceSeeds: map<string, string>)

  /** The part of local storage that holds identity records. */
  type Storage = map<string, State>

  /** A ThreeId instance. `fingerprint` is `muportFingerprint`, set once the
      identity document has been published. */
  datatype ThreeId = ThreeId(
    managementAddress: Option<string>,
    mainKeyring: Keyring,
    keyrings: map<string, Keyring>,
    fingerprint: Option<string>)

  /** The external signer and the key-derivation chain, left uninterpreted:
      `openBoxConsent(address, ethereum)`, `openSpaceConsent(address, ethereum, name)`,
      and sha256 -> entropyToMnemonic -> mnemonicToSeed applied to a signature. */
  datatype Auth = Auth(
    boxConsent: string -> string,
    spaceConsent: (Option<string>, string) -> string,
    deriveSeed: string -> string)

  /** The management address, when present, is non-empty and lower case. */
  predicate Normalized(id: ThreeId)
  {
    id.managementAddress.Some? ==>
      id.managementAddress.value != "" && Lower(id.managementAddress.value) == id.managementAddress.value
  }

  /** `STORAGE_KEY + address`; an undefined address gives "serialized3id_undefined". */
  function StorageKeyFor(address: Option<string>): string
  {
    StorageKey + Show(address)
  }

  /** `_init3id(serializedState)`: lower-cases a truthy management address and
      builds the main keyring and one keyring per entry of `spaceSeeds`. */
  function Init3id(s: State): (id: ThreeId)
    ensures Normalized(id)
    ensures id.managementAddress.Some? <==> s.managementAddress.Some? && s.managementAddress.value != ""
    ensures id.managementAddress.Some? ==> id.managementAddress.value == Lower(s.managementAddress.value)
    ensures id.mainKeyring.seed == s.seed
    ensures id.keyrings.Keys == s.spaceSeeds.Keys
    ensures forall n :: n in s.spaceSeeds ==> id.keyrings[n].seed == s.spaceSeeds[n]
    ensures id.fingerprint.None?
  {
    var address :=
      if s.managementAddress.Some? && s.managementAddress.value != "" then
        LowerIdempotent(s.managementAddress.value);
        Some(Lower(s.managementAddress.value))
      else None;
    ThreeId(address, Keyring(s.seed), map n | n in s.spaceSeeds :: Keyring(s.spaceSeeds[n]), None)
  }

  /** `serializeState()` */
  function Serialize(id: ThreeId): (s: State)
    ensures s.spaceSeeds.Keys == id.keyrings.Keys
  {
    State(id.managementAddress, id.mainKeyring.seed, map n | n in id.keyrings :: id.keyrings[n].seed)
  }

  /** Re-initialising from the serialised state gives back the same address,
      main keyring and space keyrings (the fingerprint is set only by publication). */
  lemma SerializeRoundTrip(id: ThreeId)
    requires Normalized(id)
    ensures Init3id(Serialize(id)) == id.(fingerprint := None)
  {
    var r := Init3id(Serialize(id));
    assert r.keyrings == id.keyrings;
  }

  /** Serialising a freshly initialised identity normalises the record: only
      the address changes, and a second round trip changes nothing. */
  lemma InitSerializeRoundTrip(s: State)
    ensures Serialize(Init3id(s)).seed == s.seed
    ensures Serialize(Init3id(s)).spaceSeeds == s.spaceSeeds
    ensures Init3id(Serialize(Init3id(s))) == Init3id(s)
  {
    SerializeRoundTrip(Init3id(s));
  }

  datatype Constructed = Constructed(id: ThreeId, storage: Storage)

  /** `new ThreeId(serializedState, ...)`: initialise, then persist the state
      only when there is a management address. */
  function Construct(s: State, storage: Storage): (r: Constructed)
    ensures r.id == Init3id(s)
    ensures r.id.managementAddress.None? ==> r.storage == storage
    ensures r.id.managementAddress.Some? ==>
              r.storage == storage[StorageKeyFor(r.id.managementAddress) := Serialize(r.id)]
  {
    var id := Init3id(s);
    if id.managementAddress.Some? then Constructed(id, storage[StorageKeyFor(id.managementAddress) := Serialize(id)])
    else Constructed(id, storage)
  }

  /** What construction persists restores the constructed identity. */
  lemma ConstructPersistsRestorable(s: State, storage: Storage)
    requires s.managementAddress.Some? && s.managementAddress.value != ""
    ensures var r := Construct(s, storage);
            && StorageKeyFor(r.id.managementAddress) in r.storage
            && Init3id(r.storage[StorageKeyFor(r.id.managementAddress)]) == r.id
  {
    SerializeRoundTrip(Init3id(s));
  }

  datatype KeyringInit = KeyringInit(id: ThreeId, storage: Storage, consented: bool)

  /** `initKeyringByName(name)`: a keyring for a new space name is derived
      from a consent signature, added, and the whole state persisted under the
      management address; an existing name needs no consent and changes nothing. */
  function InitKeyringByName(id: ThreeId, storage: Storage, name: string, auth: Auth): (r: KeyringInit)
    ensures r.consented <==> name !in id.keyrings
    ensures !r.consented ==> r.id == id && r.storage == storage
    ensures r.id.keyrings.Keys == id.keyrings.Keys + {name}
    ensures forall n :: n in id.keyrings ==> r.id.keyrings[n] == id.keyrings[n]
    ensures r.id.(keyrings := id.keyrings) == id
    ensures r.consented ==>
              r.id.keyrings[name] == Keyring(auth.deriveSeed(auth.spaceConsent(id.managementAddress, name)))
    ensures r.consented ==> r.storage == storage[StorageKeyFor(id.managementAddress) := Serialize(r.id)]
  {
    if name !in id.keyrings then
      var sig := auth.spaceConsent(id.managementAddress, name);
      var id' := id.(keyrings := id.keyrings[name := Keyring(auth.deriveSeed(sig))]);
      KeyringInit(id', storage[StorageKeyFor(id.managementAddress) := Serialize(id')], true)
    else
      KeyringInit(id, storage, false)
  }

  /** A second `initKeyringByName` with the same name asks for no consent and
      changes nothing, and the record the first call persisted restores the
      identity it produced. */
  lemma InitKeyringOnce(id: ThreeId, storage: Storage, name: string, auth: Auth, auth2: Auth)
    requires Normalized(id)
    ensures var first := InitKeyringByName(id, storage, name, auth);
            var second := InitKeyringByName(first.id, first.storage, name, auth2);
            && !second.consented
            && second.id == first.id
            && second.storage == first.storage
            && (first.consented ==>
                  Init3id(first.storage[StorageKeyFor(id.managementAddress)]) == first.id.(fingerprint := None))
  {
    var first := InitKeyringByName(id, storage, name, auth);
    assert Normalized(first.id);
    SerializeRoundTrip(first.id);
  }

  /** `getKeyringBySpaceName(name)`: the main keyring when `.`-segment 0 is the
      fingerprint, otherwise the keyring named by segment 2 (a missing segment
      is looked up as "undefined"), or undefined. */
  function GetKeyringBySpaceName(id: ThreeId, name: string): (r: Option<Keyring>)
    ensures id.fingerprint.Some? && Nth(Split(name, "."), 0) == id.fingerprint ==> r == Some(id.mainKeyring)
    ensures Nth(Split(name, "."), 0) != id.fingerprint ==>
              (r.Some? <==> Show(Nth(Split(name, "."), 2)) in id.keyrings)
    ensures Nth(Split(name, "."), 0) != id.fingerprint && Show(Nth(Split(name, "."), 2)) in id.keyrings ==>
              r == Some(id.keyrings[Show(Nth(Split(name, "."), 2))])
  {
    var parts := Split(name, ".");
    SplitJoin(name, ".");
    if Some(parts[0]) == id.fingerprint then Some(id.mainKeyring)
    else
      var key := Show(Nth(parts, 2));
      if key in id.keyrings then Some(id.keyrings[key]) else None
  }

  /** A name whose first `.`-segment is the identity's fingerprint resolves to
      the main keyring, whatever follows. */
  lemma FingerprintNamesUseMainKeyring(id: ThreeId, fp: string, rest: string)
    requires id.fingerprint == Some(fp) && '.' !in fp
    ensures GetKeyringBySpaceName(id, fp + "." + rest) == Some(id.mainKeyring)
  {
    SplitFirstChar(fp, '.', rest);
  }

  /** `logout()`: removes exactly the record of the current management address. */
  function Logout(id: ThreeId, storage: Storage): (r: Storage)
    ensures StorageKeyFor(id.managementAddress) !in r
    ensures forall k :: k != StorageKeyFor(id.managementAddress) ==>
              (k in r <==> k in storage) && (k in r ==> r[k] == storage[k])
  {
    storage - {StorageKeyFor(id.managementAddress)}
  }

  /** `ThreeId.isLoggedIn(address)`: a record exists for the lower-cased
      address, which is the key an identity restored with that management
      address is persisted under. */
  predicate IsLoggedIn(storage: Storage, address: string)
    ensures address != "" ==>
              (IsLoggedIn(storage, address) <==>
               StorageKeyFor(Init3id(State(Some(address), "", map[])).managementAddress) in storage)
  {
    StorageKey + Lower(address) in storage
  }

  /** Login is case-insensitive: an address and its lower-cased form agree. */
  lemma IsLoggedInCaseInsensitive(storage: Storage, address: string)
    ensures IsLoggedIn(storage, address) <==> IsLoggedIn(storage, Lower(address))
  {
    LowerIdempotent(address);
  }

  /** After `logout()` the identity's own address is no longer logged in. */
  lemma LogoutLogsOut(id: ThreeId, storage: Storage)
    requires Normalized(id) && id.managementAddress.Some?
    ensures !IsLoggedIn(Logout(id, storage), id.managementAddress.value)
  {
  }

  /** The outcome of a bootstrap: the identity, local storage afterwards, how
      many consent signatures were requested, and the flag handed to
      `consentCallback`. */
  datatype Bootstrap = Bootstrap(id: ThreeId, storage: Storage, consentRequests: nat, consentGiven: bool)

  /** `ThreeId.getIdFromEthAddress(address, ...)`: reuse the stored record of
      the lower-cased address, or ask once for consent and derive a fresh seed
      with no space keyrings. `fingerprint` is the result of publishing the
      identity document. */
  function GetIdFromEthAddress(address: string, storage: Storage, auth: Auth, fingerprint: string): (r: Bootstrap)
    ensures StorageKey + Lower(address) in storage ==>
              && r.consentRequests == 0 && !r.consentGiven
              && r.id == Init3id(storage[StorageKey + Lower(address)]).(fingerprint := Some(fingerprint))
    ensures StorageKey + Lower(address) !in storage ==>
              && r.consentRequests == 1 && r.consentGiven
              && r.id.keyrings == map[]
              && r.id.mainKeyring == Keyring(auth.deriveSeed(auth.boxConsent(Lower(address))))
              && (address != "" ==> r.id.managementAddress == Some(Lower(address)))
    ensures r.id.fingerprint == Some(fingerprint)
    ensures address != "" ==> IsLoggedIn(r.storage, address)
    ensures forall k :: k in storage ==> k in r.storage
    ensures r.id.managementAddress.None? ==> r.storage == storage
    ensures r.id.managementAddress.Some? ==>
              r.storage == storage[StorageKeyFor(r.id.managementAddress) := Serialize(r.id)]
  {
    var normalized := Lower(address);
    var key := StorageKey + normalized;
    var isNew := key !in storage;
    var serialized :=
      if !isNew then storage[key]
      else State(Some(normalized), auth.deriveSeed(auth.boxConsent(normalized)), map[]);
    LowerIdempotent(address);
    var c := Construct(serialized, storage);
    Bootstrap(c.id.(fingerprint := Some(fingerprint)), c.storage, if isNew then 1 else 0, isNew)
  }

  /** Bootstrapping the same address again reuses what the first bootstrap
      persisted: no consent is asked and the identity is the same. */
  lemma GetIdFromEthAddressTwice(address: string, storage: Storage, auth: Auth, auth2: Auth, fingerprint: string)
    requires address != ""
    ensures var first := GetIdFromEthAddress(address, storage, auth, fingerprint);
            var second := GetIdFromEthAddress(address, first.storage, auth2, fingerprint);
            && second.consentRequests == 0 && !second.consentGiven
            && second.id == first.id
  {
    var first := GetIdFromEthAddress(address, storage, auth, fingerprint);
    var key := StorageKey + Lower(address);
    assert key in first.storage;
    var stored := first.storage[key];
    var id0 := first.id.(fingerprint := None);
    if key in storage {
      id0 := Init3id(storage[key]);
      if stored != storage[key] {
        SerializeRoundTrip(id0);
      }
    } else {
      LowerIdempotent(address);
      SerializeRoundTrip(id0);
    }
    assert Init3id(stored) == id0;
  }

  /** `ThreeId.getIdFromAuth(...)`: a seed from the authentication delegate and
      no management address, so nothing is persisted. */
  function GetIdFromAuth(seed: string, storage: Storage, fingerprint: string): (r: Constructed)
    ensures r.storage == storage
    ensures r.id.managementAddress.None?
    ensures r.id.mainKeyring == Keyring(seed) && r.id.keyrings == map[]
    ensures r.id.fingerprint == Some(fingerprint)
  {
    var c := Construct(State(None, seed, map[]), storage);
    Constructed(c.id.(fingerprint := Some(fingerprint)), c.storage)
  }

  /** An identity from the authentication delegate has no management address,
      so the first space keyring it derives is persisted under the key
      "serialized3id_undefined", which `isLoggedIn("undefined")` then finds. */
  lemma AuthIdentityPersistsUnderUndefined(seed: string, storage: Storage, fingerprint: string,
                                           name: string, auth: Auth)
    ensures var c := GetIdFromAuth(seed, storage, fingerprint);
            var k := InitKeyringByName(c.id, c.storage, name, auth);
            && k.consented
            && StorageKeyFor(c.id.managementAddress) == StorageKey + "undefined"
            && IsLoggedIn(k.storage, "undefined")
  {
    LowerOfLowercase("undefined");
  }
}

=== FILE: key_value.dfy ===
/** The underlying key-value store that both reducers share, reduced to a
    plain map from string keys to JSON-like values (replication, metadata
    and asynchrony belong to the external store and are not modelled). */
module KeyValue {
  import opened Base

  /** A JSON value as stored by the key-value store. Numbers are integers. */
  datatype Value =
    | Null
    | Bool(b: bool)
    | Num(n: int)
    | Str(s: string)
    | Arr(items: seq<Value>)
    | Obj(fields: map<string, Value>)

  /** JavaScript truthiness, as used by `if (entry)` on a read result. */
  predicate Truthy(v: Value)
  {
    match v
    case Null => false
    case Bool(b) => b
    case Num(n) => n != 0
    case Str(s) => s != ""
    case Arr(_) => true
    case Obj(_) => true
  }

  /** A read result that passes `if (...)`: defined and truthy. */
  predicate Present(o: Option<Value>)
  {
    o.Some? && Truthy(o.value)
  }

  type Store = map<string, Value>

  /** One element of `store.log()`. */
  datatype LogEntry = LogEntry(key: string, value: Value)

  /** `store.get(key)`: undefined when the key is absent. */
  function Get(m: Store, key: string): Option<Value>
  {
    if key in m then Some(m[key]) else None
  }

  /** `order` is an iteration order of the keys `keys`: each key exactly once. */
  ghost predicate Enumerates(order: seq<string>, keys: set<string>)
  {
    && (forall i :: 0 <= i < |order| ==> order[i] in keys)
    && (forall k :: k in keys ==> k in order)
    && (forall i, j :: 0 <= i < j < |order| ==> order[i] != order[j])
  }

  /** Index `i` is the last write to its key in `ks`. */
  ghost predicate LastWrite(ks: seq<string>, i: int)
    requires 0 <= i < |ks|
  {
    forall j :: i < j < |ks| ==> ks[j] != ks[i]
  }

  /** `store.setMultiple(keys, values)`: the pairs are written in order, so
      a key that appears twice keeps its last value. */
  function PutAll(m: Store, ks: seq<string>, vs: seq<Value>): (r: Store)
    requires |ks| == |vs|
    ensures forall k :: k in r <==> k in m || k in ks
    ensures forall k :: k in m && k !in ks ==> r[k] == m[k]
    ensures forall i :: 0 <= i < |ks| && LastWrite(ks, i) ==> r[ks[i]] == vs[i]
    decreases |ks|
  {
    if |ks| == 0 then m
    else
      var n := |ks| - 1;
      var prev := PutAll(m, ks[..n], vs[..n]);
      PutAllStep(m, ks, vs, ks[..n], vs[..n], prev);
      prev[ks[n] := vs[n]]
  }

  /** One more write on top of the writes of all but the last pair. */
  lemma PutAllStep(m: Store, ks: seq<string>, vs: seq<Value>, ps: seq<string>, pv: seq<Value>, prev: Store)
    requires |ks| == |vs| > 0
    requires ps == ks[..|ks| - 1] && pv == vs[..|vs| - 1]
    requires forall k :: k in prev <==> k in m || k in ps
    requires forall k :: k in m && k !in ps ==> prev[k] == m[k]
    requires forall i :: 0 <= i < |ps| && LastWrite(ps, i) ==> prev[ps[i]] == pv[i]
    ensures var r := prev[ks[|ks| - 1] := vs[|ks| - 1]];
            && (forall k :: k in r <==> k in m || k in ks)
            && (forall k :: k in m && k !in ks ==> r[k] == m[k])
            && (forall i :: 0 <= i < |ks| && LastWrite(ks, i) ==> r[ks[i]] == vs[i])
  {
    var n := |ks| - 1;
    assert ks == ps + [ks[n]];
    forall i | 0 <= i < n && LastWrite(ks, i)
      ensures prev[ks[i]] == vs[i]
    {
      assert ps[i] == ks[i];
      assert LastWrite(ps, i);
      assert pv[i] == vs[i];
    }
  }
}

=== FILE: names.dfy ===
/** The OrbitDB store names a space and its threads live under, and how
    `split('.')` takes them apart again. */
module Names {
  import opened Strings

  /** `nameToSpaceName(name)`: the key-value store of a space. */
  function NameToSpaceName(name: string): (r: string)
    ensures |r| == |name| + 20
    ensures r[..11] == "3box.space." && r[|r| - 9..] == ".keyvalue"
    ensures r[11..|r| - 9] == name
  {
    "3box.space." + name + ".keyvalue"
  }

  /** `namesTothreadName(spaceName, threadName)`: the store of a thread. */
  function NamesToThreadName(spaceName: string, threadName: string): (r: string)
    ensures |r| == |spaceName| + |threadName| + 13
    ensures r[..12] == "3box.thread."
    ensures r[12..] == spaceName + "." + threadName
    ensures '.' !in spaceName && '.' !in threadName ==>
              Split(r, ".") == ["3box", "thread", spaceName, threadName]
  {
    var r := "3box.thread." + spaceName + "." + threadName;
    assert "3box.thread." == "3box" + "." + "thread" + ".";
    assert r == "3box" + "." + ("thread" + "." + (spaceName + "." + threadName));
    if '.' !in spaceName && '.' !in threadName then DotQuad("3box", "thread", spaceName, threadName); r
    else r
  }

  /** One `.`-separated segment in front of the rest. */
  lemma DotStep(a: string, b: string)
    requires '.' !in a
    ensures Split(a + "." + b, ".") == [a] + Split(b, ".")
  {
    SplitFirstChar(a, '.', b);
  }

  /** The last two segments of a dotted name. */
  lemma DotPair(a: string, b: string)
    requires '.' !in a && '.' !in b
    ensures Split(a + "." + b, ".") == [a, b]
  {
    DotStep(a, b);
    SplitNoChar(b, '.');
  }

  /** Three dot-free segments. */
  lemma DotTriple(a: string, b: string, c: string)
    requires '.' !in a && '.' !in b && '.' !in c
    ensures Split(a + "." + (b + "." + c), ".") == [a, b, c]
  {
    DotStep(a, b + "." + c);
    DotPair(b, c);
  }

  /** Four dot-free segments. */
  lemma DotQuad(a: string, b: string, c: string, d: string)
    requires '.' !in a && '.' !in b && '.' !in c && '.' !in d
    ensures Split(a + "." + (b + "." + (c + "." + d)), ".") == [a, b, c, d]
  {
    DotStep(a, b + "." + (c + "." + d));
    DotTriple(b, c, d);
  }

  /** For a dot-free space name, `.`-segment 2 of the space's store name is
      the space name. */
  lemma SpaceNameSegments(name: string)
    requires '.' !in name
    ensures Split(NameToSpaceName(name), ".") == ["3box", "space", name, "keyvalue"]
  {
    assert "3box.space." == "3box" + "." + "space" + ".";
    assert ".keyvalue" == "." + "keyvalue";
    assert NameToSpaceName(name) == "3box" + "." + ("space" + "." + (name + "." + "keyvalue"));
    DotQuad("3box", "space", name, "keyvalue");
  }

  /** The thread store name regrouped into dotted segments, the form
      `DotQuad` takes apart. */
  lemma ThreadNameShape(spaceName: string, threadName: string)
    ensures NamesToThreadName(spaceName, threadName)
            == "3box" + "." + ("thread" + "." + (spaceName + "." + threadName))
  {
    assert "3box.thread." == "3box" + "." + "thread" + ".";
  }

  /** A thread store address is a dot-free prefix (the "/orbitdb/<hash>/"
      part) followed by the thread's store name; for dot-free space and
      thread names, `.`-segment 2 is the space and segment 3 the thread. */
  lemma ThreadAddressSegments(prefix: string, spaceName: string, threadName: string)
    requires '.' !in prefix && '.' !in spaceName && '.' !in threadName
    ensures Split(prefix + NamesToThreadName(spaceName, threadName), ".")
            == [prefix + "3box", "thread", spaceName, threadName]
  {
    var rest := "thread" + "." + (spaceName + "." + threadName);
    ThreadNameShape(spaceName, threadName);
    assert prefix + NamesToThreadName(spaceName, threadName) == (prefix + "3box") + "." + rest;
    DotQuad(prefix + "3box", "thread", spaceName, threadName);
  }
}

=== FILE: reducers.dfy ===
/** The two store reducers of a space: views over one underlying store.
    The public view prefixes every key with "pub_"; the private view keeps
    each entry under "priv_" + hash(key, space) as an encrypted envelope
    {key, value}, so that the plaintext key can be recovered when listing. */
module Reducers {
  import opened Base
  import opened KeyValue

  const Pub: string := "pub_"
  const Priv: string := "priv_"

  /** `key.startsWith('pub_')` */
  predicate IsPublicKey(sk: string)
  {
    Pub <= sk
  }

  /** `key.startsWith('priv_')` */
  predicate IsPrivateKey(sk: string)
  {
    Priv <= sk
  }

  /** The two partitions of the underlying store never share a key. */
  lemma PrefixesDisjoint(sk: string)
    ensures !(IsPublicKey(sk) && IsPrivateKey(sk))
  {
    if IsPublicKey(sk) {
      assert sk[1] == Pub[1] == 'u';
    }
    if IsPrivateKey(sk) {
      assert sk[1] == Priv[1] == 'r';
    }
  }

  /** Stripping the public prefix (`key.slice(4)`; the prefix has 4 characters)
      and putting it back gives the original key. */
  lemma PublicPrefixRoundTrip(sk: string)
    requires IsPublicKey(sk)
    ensures Pub + sk[|Pub|..] == sk
  {
    assert sk == sk[..|Pub|] + sk[|Pub|..];
  }

  // ---------------------------------------------------------------------
  // Public reducer

  /** The underlying key the public reducer uses for `key` (`PREFIX + key`). */
  function PublicKey(key: Option<string>): string
  {
    Pub + Show(key)
  }

  /** `public.get(key)` */
  function PublicGet(m: Store, key: Option<string>): Option<Value>
  {
    Get(m, PublicKey(key))
  }

  /** `public.set(key, value)` */
  function PublicSet(m: Store, key: Option<string>, value: Value): (r: Result<Store>)
    ensures r.Err? <==> key.None?
    ensures r.Err? ==> r.error == InvalidKey
    ensures r.Ok? ==> PublicGet(r.value, key) == Some(value)
    ensures r.Ok? ==> forall sk :: sk != PublicKey(key) ==> Get(r.value, sk) == Get(m, sk)
  {
    match key
    case None => Err(InvalidKey)
    case Some(k) => Ok(m[Pub + k := value])
  }

  /** `public.remove(key)` */
  function PublicRemove(m: Store, key: Option<string>): (r: Result<Store>)
    ensures r.Err? <==> key.None?
    ensures r.Err? ==> r.error == InvalidKey
    ensures r.Ok? ==> PublicGet(r.value, key) == None
    ensures r.Ok? ==> forall sk :: sk != PublicKey(key) ==> Get(r.value, sk) == Get(m, sk)
  {
    match key
    case None => Err(InvalidKey)
    case Some(k) => Ok(m - {Pub + k})
  }

  /** The underlying keys `public.setMultiple(keys, ...)` writes; an undefined
      key is not rejected here and becomes "pub_undefined". */
  function PublicKeys(keys: seq<Option<string>>): (r: seq<string>)
    ensures |r| == |keys|
    ensures forall i :: 0 <= i < |keys| ==> r[i] == PublicKey(keys[i])
  {
    seq(|keys|, i requires 0 <= i < |keys| => PublicKey(keys[i]))
  }

  /** `public.setMultiple(keys, values)` */
  function PublicSetMultiple(m: Store, keys: seq<Option<string>>, values: seq<Value>): (r: Result<Store>)
    ensures r.Err? <==> |keys| != |values|
    ensures r.Err? ==> r.error == LengthMismatch
    ensures r.Ok? ==> forall i :: 0 <= i < |keys| && LastWrite(PublicKeys(keys), i) ==>
                        PublicGet(r.value, keys[i]) == Some(values[i])
    ensures r.Ok? ==> forall sk :: sk !in PublicKeys(keys) ==> Get(r.value, sk) == Get(m, sk)
  {
    if |keys| != |values| then Err(LengthMismatch)
    else Ok(PutAll(m, PublicKeys(keys), values))
  }

  /** `public.all()`: the entries under "pub_", with the prefix stripped. */
  function PublicAll(m: Store): (r: map<string, Value>)
    ensures forall k :: k in r <==> Pub + k in m
    ensures forall k :: k in r ==> r[k] == m[Pub + k]
  {
    var keys := set sk | sk in m && IsPublicKey(sk) :: sk[|Pub|..];
    assert forall k :: Pub + k in m ==> k in keys by {
      forall k | Pub + k in m
        ensures k in keys
      {
        assert (Pub + k)[|Pub|..] == k;
      }
    }
    map k | k in keys && Pub + k in m :: m[Pub + k]
  }

  /** `public.get(key)` agrees with `public.all()` at the key as rendered (an
      undefined key reads the entry listed as "undefined"). */
  lemma PublicGetAgreesWithAll(m: Store, key: Option<string>)
    ensures PublicGet(m, key) == (if Show(key) in PublicAll(m) then Some(PublicAll(m)[Show(key)]) else None)
  {
  }

  /** `public.log()`: the log entries under "pub_", prefix stripped, in log order. */
  function PublicLog(log: seq<LogEntry>): (r: seq<LogEntry>)
    ensures |r| <= |log|
    ensures forall e :: e in r ==> LogEntry(Pub + e.key, e.value) in log
    ensures forall i :: 0 <= i < |log| && IsPublicKey(log[i].key) ==>
              LogEntry(log[i].key[|Pub|..], log[i].value) in r
    decreases |log|
  {
    if |log| == 0 then []
    else
      var e := log[0];
      var rest := PublicLog(log[1..]);
      if IsPublicKey(e.key) then
        PublicPrefixRoundTrip(e.key);
        [LogEntry(e.key[|Pub|..], e.value)] + rest
      else rest
  }

  // ---------------------------------------------------------------------
  // Private reducer

  /** The plaintext that is encrypted for each private entry. */
  datatype Envelope = Envelope(key: string, value: Value)

  /** The identity's per-space primitives the private reducer calls, left
      uninterpreted: `hashDBKey(key, space)`, `encrypt(JSON.stringify(entry), space)`
      (an object holding nonce and ciphertext), and `JSON.parse(decrypt(obj, space))`. */
  datatype Crypto = Crypto(
    hashKey: (string, string) -> string,
    encrypt: (Envelope, string) -> map<string, Value>,
    decrypt: (Value, string) -> Envelope)

  /** The one assumption about the primitives: decryption undoes encryption. */
  ghost predicate Sound(c: Crypto)
  {
    forall e, space :: c.decrypt(Obj(c.encrypt(e, space)), space) == e
  }

  /** The underlying key of a private entry: "priv_" + hash(key, space). */
  function PrivateKey(c: Crypto, space: string, key: string): string
  {
    Priv + c.hashKey(key, space)
  }

  /** The stored form of a private entry: the encrypted envelope. */
  function Seal(c: Crypto, space: string, key: string, value: Value): Value
  {
    Obj(c.encrypt(Envelope(key, value), space))
  }

  /** `dbKey(key)`, which rejects an undefined key. */
  function DbKey(c: Crypto, space: string, key: Option<string>): (r: Result<string>)
    ensures r.Err? <==> key.None?
    ensures r.Err? ==> r.error == InvalidKey
    ensures r.Ok? ==> r.value == PrivateKey(c, space, key.value) && IsPrivateKey(r.value)
  {
    match key
    case None => Err(InvalidKey)
    case Some(k) => Ok(PrivateKey(c, space, k))
  }

  /** `private.get(key)`: null when nothing truthy is stored under the hashed key. */
  function PrivateGet(m: Store, c: Crypto, space: string, key: Option<string>): (r: Result<Value>)
    ensures r.Err? <==> key.None?
    ensures r.Err? ==> r.error == InvalidKey
    ensures key.Some? ==>
              var sk := PrivateKey(c, space, key.value);
              r == (if sk in m && Truthy(m[sk]) then Ok(c.decrypt(m[sk], space).value) else Ok(Null))
  {
    match DbKey(c, space, key)
    case Err(e) => Err(e)
    case Ok(sk) =>
      if sk in m && Truthy(m[sk]) then Ok(c.decrypt(m[sk], space).value) else Ok(Null)
  }

  /** `private.set(key, value)`: the envelope {key, value} is encrypted and
      stored under the hashed key, and reading the key back yields the value. */
  function PrivateSet(m: Store, c: Crypto, space: string, key: Option<string>, value: Value): (r: Result<Store>)
    ensures r.Err? <==> key.None?
    ensures r.Err? ==> r.error == InvalidKey
    ensures r.Ok? ==> Get(r.value, PrivateKey(c, space, key.value)) == Some(Seal(c, space, key.value, value))
    ensures r.Ok? && Sound(c) ==> PrivateGet(r.value, c, space, key) == Ok(value)
    ensures r.Ok? ==> forall sk :: sk != PrivateKey(c, space, key.value) ==> Get(r.value, sk) == Get(m, sk)
  {
    match DbKey(c, space, key)
    case Err(e) => Err(e)
    case Ok(sk) => Ok(m[sk := Seal(c, space, key.value, value)])
  }

  /** `private.remove(key)`: afterwards `private.get(key)` yields null. */
  function PrivateRemove(m: Store, c: Crypto, space: string, key: Option<string>): (r: Result<Store>)
    ensures r.Err? <==> key.None?
    ensures r.Err? ==> r.error == InvalidKey
    ensures r.Ok? ==> PrivateGet(r.value, c, space, key) == Ok(Null)
    ensures r.Ok? ==> PrivateKey(c, space, key.value) !in r.value
    ensures r.Ok? ==> forall sk :: sk != PrivateKey(c, space, key.value) ==> Get(r.value, sk) == Get(m, sk)
  {
    match DbKey(c, space, key)
    case Err(e) => Err(e)
    case Ok(sk) => Ok(m - {sk})
  }

  /** The underlying keys `private.setMultiple(keys, ...)` writes. */
  function PrivateKeys(c: Crypto, space: string, keys: seq<Option<string>>): (r: seq<string>)
    ensures |r| == |keys|
    ensures forall i :: 0 <= i < |keys| ==> r[i] == PrivateKey(c, space, Show(keys[i]))
  {
    seq(|keys|, i requires 0 <= i < |keys| => PrivateKey(c, space, Show(keys[i])))
  }

  /** The encrypted envelopes `private.setMultiple(keys, values)` writes. */
  function Seals(c: Crypto, space: string, keys: seq<Option<string>>, values: seq<Value>): (r: seq<Value>)
    requires |keys| == |values|
    ensures |r| == |keys|
    ensures forall i :: 0 <= i < |keys| ==> r[i] == Seal(c, space, Show(keys[i]), values[i])
  {
    seq(|keys|, i requires 0 <= i < |keys| => Seal(c, space, Show(keys[i]), values[i]))
  }

  /** `private.setMultiple(keys, values)`: the length check comes first, then
      every key is hashed (an undefined key is rejected). */
  function PrivateSetMultiple(m: Store, c: Crypto, space: string, keys: seq<Option<string>>, values: seq<Value>)
    : (r: Result<Store>)
    ensures r.Ok? <==> |keys| == |values| && forall i :: 0 <= i < |keys| ==> keys[i].Some?
    ensures r.Err? ==> r.error == (if |keys| != |values| then LengthMismatch else InvalidKey)
    ensures r.Ok? && Sound(c) ==>
              forall i :: 0 <= i < |keys| && LastWrite(PrivateKeys(c, space, keys), i) ==>
                PrivateGet(r.value, c, space, keys[i]) == Ok(values[i])
    ensures r.Ok? ==> forall sk :: !IsPrivateKey(sk) ==> Get(r.value, sk) == Get(m, sk)
    ensures r.Ok? ==> forall sk :: sk !in PrivateKeys(c, space, keys) ==> Get(r.value, sk) == Get(m, sk)
  {
    if |keys| != |values| then Err(LengthMismatch)
    else if exists i :: 0 <= i < |keys| && keys[i].None? then Err(InvalidKey)
    else
      SealsReadBack(m, c, space, keys, values);
      Ok(PutAll(m, PrivateKeys(c, space, keys), Seals(c, space, keys, values)))
  }

  /** With sound primitives, each last write of a batch reads back as written. */
  lemma SealsReadBack(m: Store, c: Crypto, space: string, keys: seq<Option<string>>, values: seq<Value>)
    requires |keys| == |values|
    requires forall i :: 0 <= i < |keys| ==> keys[i].Some?
    ensures Sound(c) ==>
              forall i :: 0 <= i < |keys| && LastWrite(PrivateKeys(c, space, keys), i) ==>
                PrivateGet(PutAll(m, PrivateKeys(c, space, keys), Seals(c, space, keys, values)), c, space, keys[i]) == Ok(values[i])
  {
    var ks, ss := PrivateKeys(c, space, keys), Seals(c, space, keys, values);
    var r := PutAll(m, ks, ss);
    if Sound(c) {
      forall i | 0 <= i < |keys| && LastWrite(ks, i)
        ensures PrivateGet(r, c, space, keys[i]) == Ok(values[i])
      {
        assert r[ks[i]] == ss[i];
        assert c.decrypt(ss[i], space) == Envelope(keys[i].value, values[i]);
      }
    }
  }

  /** Some private entry of `m` decrypts to the envelope {key, value}. */
  ghost predicate StoredEnvelope(m: Store, c: Crypto, space: string, key: string, value: Value)
  {
    exists sk :: sk in m && IsPrivateKey(sk) && c.decrypt(m[sk], space) == Envelope(key, value)
  }

  /** `private.all()`: every entry under "priv_", visited in the store's
      iteration order `order`, decrypted and listed under its recovered
      plaintext key (a later entry with the same plaintext key wins). */
  function PrivateAll(m: Store, c: Crypto, space: string, order: seq<string>): (r: map<string, Value>)
    requires forall i :: 0 <= i < |order| ==> order[i] in m
    ensures forall i :: 0 <= i < |order| && IsPrivateKey(order[i]) ==> c.decrypt(m[order[i]], space).key in r
    ensures forall k :: k in r ==> StoredEnvelope(m, c, space, k, r[k])
    decreases |order|
  {
    if |order| == 0 then map[]
    else
      var n := |order| - 1;
      var prev := PrivateAll(m, c, space, order[..n]);
      var sk := order[n];
      assert forall i :: 0 <= i < n ==> order[..n][i] == order[i];
      if IsPrivateKey(sk) then
        var e := c.decrypt(m[sk], space);
        prev[e.key := e.value]
      else prev
  }

  /** `private.log()`: the log entries under "priv_", each replaced by its
      decrypted key and value, in log order. */
  function PrivateLog(c: Crypto, space: string, log: seq<LogEntry>): (r: seq<LogEntry>)
    ensures |r| <= |log|
    ensures forall e :: e in r ==>
              exists i :: 0 <= i < |log| && IsPrivateKey(log[i].key) && c.decrypt(log[i].value, space) == Envelope(e.key, e.value)
    ensures forall i :: 0 <= i < |log| && IsPrivateKey(log[i].key) ==>
              var d := c.decrypt(log[i].value, space); LogEntry(d.key, d.value) in r
    decreases |log|
  {
    if |log| == 0 then []
    else
      var e := log[0];
      var rest := PrivateLog(c, space, log[1..]);
      assert forall i :: 0 < i < |log| ==> log[1..][i - 1] == log[i];
      if IsPrivateKey(e.key) then
        var d := c.decrypt(e.value, space);
        [LogEntry(d.key, d.value)] + rest
      else rest
  }

  /** `public.log()` keeps log order: the log of a concatenation is the
      concatenation of the logs. */
  lemma {:induction false} PublicLogAppend(a: seq<LogEntry>, b: seq<LogEntry>)
    ensures PublicLog(a + b) == PublicLog(a) + PublicLog(b)
    decreases |a|
  {
    if |a| == 0 {
      assert a + b == b;
    } else {
      assert (a + b)[0] == a[0];
      assert (a + b)[1..] == a[1..] + b;
      PublicLogAppend(a[1..], b);
    }
  }

  /** `private.log()` keeps log order in the same way. */
  lemma {:induction false} PrivateLogAppend(c: Crypto, space: string, a: seq<LogEntry>, b: seq<LogEntry>)
    ensures PrivateLog(c, space, a + b) == PrivateLog(c, space, a) + PrivateLog(c, space, b)
    decreases |a|
  {
    if |a| == 0 {
      assert a + b == b;
    } else {
      assert (a + b)[0] == a[0];
      assert (a + b)[1..] == a[1..] + b;
      PrivateLogAppend(c, space, a[1..], b);
    }
  }

  // ---------------------------------------------------------------------
  // The private partition as a map from plaintext keys

  /** Every private entry sits at the hash of the plaintext key it carries,
      as the private reducer's writes leave it. */
  ghost predicate WellFormed(m: Store, c: Crypto, space: string)
  {
    forall sk :: sk in m && IsPrivateKey(sk) ==> sk == PrivateKey(c, space, c.decrypt(m[sk], space).key)
  }

  /** The plaintext keys recoverable from the private partition. */
  function RecoveredKeys(m: Store, c: Crypto, space: string): set<string>
  {
    set sk | sk in m && IsPrivateKey(sk) :: c.decrypt(m[sk], space).key
  }

  /** Reference reading of the private partition: each recovered plaintext
      key maps to the value decrypted from its own hashed location. */
  function PrivateView(m: Store, c: Crypto, space: string): map<string, Value>
  {
    map k | k in RecoveredKeys(m, c, space) && PrivateKey(c, space, k) in m ::
      c.decrypt(m[PrivateKey(c, space, k)], space).value
  }

  // ---------------------------------------------------------------------
  // Partition isolation

  /** Stores that agree on every private key have the same private view. */
  lemma SamePrivatePartition(m1: Store, m2: Store, c: Crypto, space: string)
    requires forall sk :: IsPrivateKey(sk) ==> Get(m1, sk) == Get(m2, sk)
    ensures RecoveredKeys(m1, c, space) == RecoveredKeys(m2, c, space)
    ensures PrivateView(m1, c, space) == PrivateView(m2, c, space)
    ensures WellFormed(m1, c, space) <==> WellFormed(m2, c, space)
  {
    forall sk | sk in m1 && IsPrivateKey(sk)
      ensures sk in m2 && m2[sk] == m1[sk]
    {
      assert Get(m1, sk) == Get(m2, sk);
    }
    forall sk | sk in m2 && IsPrivateKey(sk)
      ensures sk in m1 && m1[sk] == m2[sk]
    {
      assert Get(m1, sk) == Get(m2, sk);
    }
    forall k ensures IsPrivateKey(PrivateKey(c, space, k)) {
    }
  }

  /** Stores that agree on every public key have the same public view. */
  lemma SamePublicPartition(m1: Store, m2: Store)
    requires forall sk :: IsPublicKey(sk) ==> Get(m1, sk) == Get(m2, sk)
    ensures PublicAll(m1) == PublicAll(m2)
  {
    forall k | Pub + k in m1 || Pub + k in m2
      ensures Get(m1, Pub + k) == Get(m2, Pub + k)
    {
      assert IsPublicKey(Pub + k);
    }
  }

  /** A write through the private reducer is invisible to the public view. */
  lemma PrivateWritesInvisiblePublicly(m: Store, c: Crypto, space: string, key: Option<string>, value: Value)
    ensures PrivateSet(m, c, space, key, value).Ok? ==>
              PublicAll(PrivateSet(m, c, space, key, value).value) == PublicAll(m)
    ensures PrivateRemove(m, c, space, key).Ok? ==>
              PublicAll(PrivateRemove(m, c, space, key).value) == PublicAll(m)
  {
    if key.Some? {
      forall sk | IsPublicKey(sk)
        ensures sk != PrivateKey(c, space, key.value)
      {
        PrefixesDisjoint(sk);
      }
      SamePublicPartition(PrivateSet(m, c, space, key, value).value, m);
      SamePublicPartition(PrivateRemove(m, c, space, key).value, m);
    }
  }

  /** `private.setMultiple` is invisible to the public view. */
  lemma PrivateSetMultipleInvisiblePublicly(m: Store, c: Crypto, space: string, keys: seq<Option<string>>, values: seq<Value>)
    ensures PrivateSetMultiple(m, c, space, keys, values).Ok? ==>
              PublicAll(PrivateSetMultiple(m, c, space, keys, values).value) == PublicAll(m)
  {
    var r := PrivateSetMultiple(m, c, space, keys, values);
    if r.Ok? {
      forall sk | IsPublicKey(sk)
        ensures Get(r.value, sk) == Get(m, sk)
      {
        PrefixesDisjoint(sk);
      }
      SamePublicPartition(r.value, m);
    }
  }

  /** Writes through the public reducer are invisible to the private view
      and keep it well formed. */
  lemma PublicWritesInvisiblePrivately(m: Store, c: Crypto, space: string, key: Option<string>, value: Value)
    ensures PublicSet(m, key, value).Ok? ==>
              var r := PublicSet(m, key, value).value;
              && RecoveredKeys(r, c, space) == RecoveredKeys(m, c, space)
              && PrivateView(r, c, space) == PrivateView(m, c, space)
              && (WellFormed(m, c, space) ==> WellFormed(r, c, space))
    ensures PublicRemove(m, key).Ok? ==>
              var r := PublicRemove(m, key).value;
              && RecoveredKeys(r, c, space) == RecoveredKeys(m, c, space)
              && PrivateView(r, c, space) == PrivateView(m, c, space)
              && (WellFormed(m, c, space) ==> WellFormed(r, c, space))
  {
    forall sk | IsPrivateKey(sk)
      ensures sk != PublicKey(key)
    {
      PrefixesDisjoint(sk);
    }
    if key.Some? {
      SamePrivatePartition(PublicSet(m, key, value).value, m, c, space);
      SamePrivatePartition(PublicRemove(m, key).value, m, c, space);
    }
  }

  /** `public.setMultiple` is invisible to the private view. */
  lemma PublicSetMultipleInvisiblePrivately(m: Store, c: Crypto, space: string, keys: seq<Option<string>>, values: seq<Value>)
    ensures PublicSetMultiple(m, keys, values).Ok? ==>
              var r := PublicSetMultiple(m, keys, values).value;
              && RecoveredKeys(r, c, space) == RecoveredKeys(m, c, space)
              && PrivateView(r, c, space) == PrivateView(m, c, space)
              && (WellFormed(m, c, space) ==> WellFormed(r, c, space))
  {
    var r := PublicSetMultiple(m, keys, values);
    if r.Ok? {
      forall sk | IsPrivateKey(sk)
        ensures Get(r.value, sk) == Get(m, sk)
      {
        PrefixesDisjoint(sk);
      }
      SamePrivatePartition(r.value, m, c, space);
    }
  }

  // ---------------------------------------------------------------------
  // The private partition stays well formed, and listing it agrees with
  // the reference view

  /** `private.set` and `private.remove` keep every entry at the hash of its own key. */
  lemma PrivateWritesKeepWellFormed(m: Store, c: Crypto, space: string, key: Option<string>, value: Value)
    requires Sound(c)
    requires WellFormed(m, c, space)
    ensures PrivateSet(m, c, space, key, value).Ok? ==> WellFormed(PrivateSet(m, c, space, key, value).value, c, space)
    ensures PrivateRemove(m, c, space, key).Ok? ==> WellFormed(PrivateRemove(m, c, space, key).value, c, space)
  {
    if key.Some? {
      var sk := PrivateKey(c, space, key.value);
      assert c.decrypt(Seal(c, space, key.value, value), space) == Envelope(key.value, value);
      var r := PrivateSet(m, c, space, key, value).value;
      forall sk' | sk' in r && IsPrivateKey(sk')
        ensures sk' == PrivateKey(c, space, c.decrypt(r[sk'], space).key)
      {
        if sk' != sk {
          assert Get(r, sk') == Get(m, sk');
        }
      }
    }
  }

  /** Some write in `ks` is the last one to key `k`. */
  lemma LastWriteExists(ks: seq<string>, k: string) returns (i: int)
    requires k in ks
    ensures 0 <= i < |ks| && ks[i] == k && LastWrite(ks, i)
    decreases |ks|
  {
    var n := |ks| - 1;
    if ks[n] == k {
      i := n;
    } else {
      assert k in ks[..n];
      i := LastWriteExists(ks[..n], k);
    }
  }

  /** `private.setMultiple` keeps the private partition well formed. */
  lemma PrivateSetMultipleKeepsWellFormed(m: Store, c: Crypto, space: string, keys: seq<Option<string>>, values: seq<Value>)
    requires Sound(c)
    requires WellFormed(m, c, space)
    ensures PrivateSetMultiple(m, c, space, keys, values).Ok? ==>
              WellFormed(PrivateSetMultiple(m, c, space, keys, values).value, c, space)
  {
    var res := PrivateSetMultiple(m, c, space, keys, values);
    if res.Ok? {
      var r := res.value;
      var ks := PrivateKeys(c, space, keys);
      var vs := Seals(c, space, keys, values);
      assert r == PutAll(m, ks, vs);
      forall sk | sk in r && IsPrivateKey(sk)
        ensures sk == PrivateKey(c, space, c.decrypt(r[sk], space).key)
      {
        if sk in ks {
          var i := LastWriteExists(ks, sk);
          assert r[sk] == Seal(c, space, Show(keys[i]), values[i]);
          assert c.decrypt(r[sk], space).key == Show(keys[i]);
        } else {
          assert r[sk] == m[sk];
        }
      }
    }
  }

  /** In a well-formed store, listing the private partition in any iteration
      order gives exactly the reference view: the recovered plaintext keys,
      each with the value decrypted from its hashed location. */
  lemma PrivateAllIsView(m: Store, c: Crypto, space: string, order: seq<string>)
    requires WellFormed(m, c, space)
    requires Enumerates(order, m.Keys)
    ensures PrivateAll(m, c, space, order) == PrivateView(m, c, space)
  {
    var r := PrivateAll(m, c, space, order);
    var v := PrivateView(m, c, space);
    forall k | k in r
      ensures k in v && v[k] == r[k]
    {
      assert StoredEnvelope(m, c, space, k, r[k]);
      var sk :| sk in m && IsPrivateKey(sk) && c.decrypt(m[sk], space) == Envelope(k, r[k]);
      assert sk == PrivateKey(c, space, k);
      assert k in RecoveredKeys(m, c, space);
    }
    forall k | k in v
      ensures k in r
    {
      var sk :| sk in m && IsPrivateKey(sk) && c.decrypt(m[sk], space).key == k;
      var i :| 0 <= i < |order| && order[i] == sk;
    }
  }

  /** Private round trip at the level of the listing: after `private.set(k, v)`
      in a well-formed store, the private view maps k to v, and every other
      plaintext key whose hash differs from k's keeps its entry. */
  lemma PrivateSetView(m: Store, c: Crypto, space: string, k: string, value: Value)
    requires Sound(c)
    requires WellFormed(m, c, space)
    ensures var r := PrivateSet(m, c, space, Some(k), value).value;
            && k in PrivateView(r, c, space)
            && PrivateView(r, c, space)[k] == value
            && forall k' :: PrivateKey(c, space, k') != PrivateKey(c, space, k) ==>
                 && (k' in PrivateView(r, c, space) <==> k' in PrivateView(m, c, space))
                 && (k' in PrivateView(m, c, space) ==> PrivateView(r, c, space)[k'] == PrivateView(m, c, space)[k'])
  {
    var r := PrivateSet(m, c, space, Some(k), value).value;
    var sk := PrivateKey(c, space, k);
    assert c.decrypt(r[sk], space) == Envelope(k, value);
    assert k in RecoveredKeys(r, c, space);
    PrivateWritesKeepWellFormed(m, c, space, Some(k), value);
    forall k' | PrivateKey(c, space, k') != sk
      ensures k' in PrivateView(r, c, space) <==> k' in PrivateView(m, c, space)
      ensures k' in PrivateView(m, c, space) ==> PrivateView(r, c, space)[k'] == PrivateView(m, c, space)[k']
    {
      var sk' := PrivateKey(c, space, k');
      assert Get(r, sk') == Get(m, sk');
      if k' in PrivateView(m, c, space) {
        assert k' in RecoveredKeys(r, c, space);
      }
      if k' in PrivateView(r, c, space) {
        assert k' in RecoveredKeys(m, c, space);
      }
    }
  }

  /** `private.get(k)` reads the reference view: on a well-formed store, a key
      the view lists with a truthy stored entry yields its value, and a key
      with nothing stored at its hash yields null. */
  lemma PrivateGetReadsView(m: Store, c: Crypto, space: string, k: string)
    requires WellFormed(m, c, space)
    ensures k in PrivateView(m, c, space) && Truthy(m[PrivateKey(c, space, k)]) ==>
              PrivateGet(m, c, space, Some(k)) == Ok(PrivateView(m, c, space)[k])
    ensures PrivateKey(c, space, k) !in m ==>
              k !in PrivateView(m, c, space) && PrivateGet(m, c, space, Some(k)) == Ok(Null)
  {
  }
}

=== FILE: root_index.dfy ===
/** Reconciliation of the shared root index in `Space.open`: the index is a
    feed of entries {type, DID, odbAddress}; a space makes sure its own store
    is listed by one typed entry, replacing a legacy untyped one. */
module RootIndex {
  import opened Base
  import opened Strings
  import opened Names

  /** `entry.payload.value`; `kind` is the `type` field, absent in legacy entries. */
  datatype IndexValue = IndexValue(kind: Option<string>, did: Option<string>, odbAddress: Option<string>)

  /** One entry of `rootStore.iterator({ limit: -1 }).collect()`. */
  datatype IndexEntry = IndexEntry(hash: string, value: IndexValue)

  /** The entry lists the store of space `name`: its odbAddress is a
      non-empty string containing `nameToSpaceName(name)`. */
  predicate ForSpace(v: IndexValue, name: string)
  {
    v.odbAddress.Some? && v.odbAddress.value != "" && Contains(v.odbAddress.value, NameToSpaceName(name))
  }

  /** `entry.payload.value.type` is truthy. */
  predicate IsTyped(v: IndexValue)
  {
    v.kind.Some? && v.kind.value != ""
  }

  /** The entry `open` adds: `{ type: 'space', DID, odbAddress }`. */
  function SpaceRecord(did: string, address: string): IndexValue
  {
    IndexValue(Some("space"), Some(did), Some(address))
  }

  /** `entries.find(...)` from position `from`: the first entry for the space. */
  function FindFrom(entries: seq<IndexEntry>, name: string, from: nat): (r: Option<nat>)
    ensures r.Some? ==> from <= r.value < |entries| && ForSpace(entries[r.value].value, name)
    ensures r.Some? ==> forall j :: from <= j < r.value ==> !ForSpace(entries[j].value, name)
    ensures r.None? ==> forall j :: from <= j < |entries| ==> !ForSpace(entries[j].value, name)
    decreases |entries| - from
  {
    if |entries| <= from then None
    else if ForSpace(entries[from].value, name) then Some(from)
    else FindFrom(entries, name, from + 1)
  }

  /** The index of the first entry for the space, if any. */
  function Find(entries: seq<IndexEntry>, name: string): Option<nat>
  {
    FindFrom(entries, name, 0)
  }

  /** `rootStore.del(hash)`: drops the entry with that hash, keeping the order. */
  function Delete(entries: seq<IndexEntry>, hash: string): seq<IndexEntry>
    decreases |entries|
  {
    if |entries| == 0 then []
    else
      var n := |entries| - 1;
      Delete(entries[..n], hash) + (if entries[n].hash == hash then [] else [entries[n]])
  }

  /** Deleting keeps exactly the entries that carry another hash. */
  lemma {:induction false} DeleteMembers(entries: seq<IndexEntry>, hash: string)
    ensures forall e :: e in Delete(entries, hash) <==> e in entries && e.hash != hash
    decreases |entries|
  {
    if |entries| > 0 {
      var n := |entries| - 1;
      DeleteMembers(entries[..n], hash);
      assert entries == entries[..n] + [entries[n]];
    }
  }

  /** The root-index part of `open()`: add the space's entry when none is
      there, replace a legacy (untyped) first entry, keep a typed one. The
      hash of an added entry is chosen by the index store and is `newHash`. */
  function Reconcile(entries: seq<IndexEntry>, name: string, did: string, address: string, newHash: string)
    : (r: seq<IndexEntry>)
    ensures Find(entries, name).None? ==> r == entries + [IndexEntry(newHash, SpaceRecord(did, address))]
    ensures Find(entries, name).Some? && !IsTyped(entries[Find(entries, name).value].value) ==>
              r == Delete(entries, entries[Find(entries, name).value].hash) + [IndexEntry(newHash, SpaceRecord(did, address))]
    ensures Find(entries, name).Some? && IsTyped(entries[Find(entries, name).value].value) ==> r == entries
    ensures forall e :: e in r ==> e in entries || e == IndexEntry(newHash, SpaceRecord(did, address))
  {
    match Find(entries, name)
    case None => entries + [IndexEntry(newHash, SpaceRecord(did, address))]
    case Some(i) =>
      if IsTyped(entries[i].value) then entries
      else
        DeleteMembers(entries, entries[i].hash);
        Delete(entries, entries[i].hash) + [IndexEntry(newHash, SpaceRecord(did, address))]
  }

  /** Content addressing: no two entries of the index share a hash. */
  ghost predicate UniqueHashes(entries: seq<IndexEntry>)
  {
    forall i, j :: 0 <= i < j < |entries| ==> entries[i].hash != entries[j].hash
  }

  /** The number of entries for space `name`. */
  function CountFor(entries: seq<IndexEntry>, name: string): nat
    decreases |entries|
  {
    if |entries| == 0 then 0
    else
      var n := |entries| - 1;
      CountFor(entries[..n], name) + (if ForSpace(entries[n].value, name) then 1 else 0)
  }

  lemma {:induction false} CountAppend(a: seq<IndexEntry>, b: seq<IndexEntry>, name: string)
    ensures CountFor(a + b, name) == CountFor(a, name) + CountFor(b, name)
    decreases |b|
  {
    if |b| == 0 {
      assert a + b == a;
    } else {
      var n := |b| - 1;
      var ab := a + b;
      assert ab[..|ab| - 1] == a + b[..n];
      assert ab[|ab| - 1] == b[n];
      CountAppend(a, b[..n], name);
    }
  }

  /** No entry for the space exactly when the count is zero. */
  lemma {:induction false} CountZero(entries: seq<IndexEntry>, name: string)
    ensures CountFor(entries, name) == 0 <==> Find(entries, name).None?
    decreases |entries|
  {
    if |entries| > 0 {
      var n := |entries| - 1;
      CountZero(entries[..n], name);
      assert forall j :: 0 <= j < n ==> entries[..n][j] == entries[j];
      if Find(entries[..n], name).Some? {
        var i := Find(entries[..n], name).value;
        assert ForSpace(entries[i].value, name);
      }
    }
  }

  /** Deleting by a hash no entry carries changes nothing. */
  lemma {:induction false} DeleteAbsent(entries: seq<IndexEntry>, hash: string)
    requires forall e :: e in entries ==> e.hash != hash
    ensures Delete(entries, hash) == entries
    decreases |entries|
  {
    if |entries| > 0 {
      var n := |entries| - 1;
      var prefix, last := entries[..n], entries[n];
      assert entries == prefix + [last];
      DeleteAbsent(prefix, hash);
    }
  }

  /** With unique hashes, deleting the hash of an entry for the space removes
      exactly one entry for the space. */
  lemma {:induction false} DeleteCount(entries: seq<IndexEntry>, name: string, i: nat)
    requires UniqueHashes(entries)
    requires i < |entries| && ForSpace(entries[i].value, name)
    ensures CountFor(Delete(entries, entries[i].hash), name) + 1 == CountFor(entries, name)
    decreases |entries|
  {
    var n := |entries| - 1;
    var h := entries[i].hash;
    var prefix := entries[..n];
    var last := entries[n];
    assert Delete(entries, h) == Delete(prefix, h) + (if last.hash == h then [] else [last]);
    assert CountFor(entries, name) == CountFor(prefix, name) + (if ForSpace(last.value, name) then 1 else 0);
    if i == n {
      DeleteAbsent(prefix, h);
      assert Delete(prefix, h) + [] == prefix;
    } else {
      assert last.hash != h;
      assert prefix[i] == entries[i];
      DeleteCount(prefix, name, i);
      CountAppend(Delete(prefix, h), [last], name);
      assert [last][..0] == [];
      assert CountFor([last], name) == CountFor([], name) + (if ForSpace(last.value, name) then 1 else 0);
    }
  }

  /** Reconciliation never adds a second entry for a space: the count becomes
      one when there was none and stays as it was otherwise. */
  lemma ReconcileCount(entries: seq<IndexEntry>, name: string, did: string, address: string, newHash: string)
    requires UniqueHashes(entries)
    requires ForSpace(SpaceRecord(did, address), name)
    ensures CountFor(Reconcile(entries, name, did, address, newHash), name)
            == if CountFor(entries, name) == 0 then 1 else CountFor(entries, name)
  {
    var added := [IndexEntry(newHash, SpaceRecord(did, address))];
    assert CountFor(added, name) == 1 by {
      assert added[..0] == [];
    }
    CountZero(entries, name);
    match Find(entries, name)
    case None =>
      CountAppend(entries, added, name);
    case Some(i) =>
      if !IsTyped(entries[i].value) {
        DeleteCount(entries, name, i);
        CountAppend(Delete(entries, entries[i].hash), added, name);
      }
  }

  /** Reconciliation touches no entry of another space. */
  lemma ReconcileKeepsOtherSpaces(entries: seq<IndexEntry>, name: string, did: string, address: string, newHash: string)
    requires UniqueHashes(entries)
    ensures forall j :: 0 <= j < |entries| && !ForSpace(entries[j].value, name) ==>
              entries[j] in Reconcile(entries, name, did, address, newHash)
  {
    var r := Reconcile(entries, name, did, address, newHash);
    forall j | 0 <= j < |entries| && !ForSpace(entries[j].value, name)
      ensures entries[j] in r
    {
      match Find(entries, name)
      case None =>
      case Some(i) =>
        if !IsTyped(entries[i].value) {
          assert i != j;
          DeleteMembers(entries, entries[i].hash);
        }
    }
  }

  /** Opening a space against an index that lists it at most once leaves it
      listed exactly once, by a typed entry, and a second reconciliation
      changes nothing. */
  lemma ReconcileIdempotent(entries: seq<IndexEntry>, name: string, did: string, address: string,
                            hash1: string, hash2: string)
    requires UniqueHashes(entries)
    requires ForSpace(SpaceRecord(did, address), name)
    requires CountFor(entries, name) <= 1
    ensures var r := Reconcile(entries, name, did, address, hash1);
            && CountFor(r, name) == 1
            && Find(r, name).Some? && IsTyped(r[Find(r, name).value].value)
            && Reconcile(r, name, did, address, hash2) == r
  {
    var r := Reconcile(entries, name, did, address, hash1);
    ReconcileCount(entries, name, did, address, hash1);
    CountZero(entries, name);
    var added := IndexEntry(hash1, SpaceRecord(did, address));
    match Find(entries, name)
    case None =>
      FirstAfter(entries, added, name);
    case Some(i) =>
      if !IsTyped(entries[i].value) {
        var rest := Delete(entries, entries[i].hash);
        DeleteCount(entries, name, i);
        CountZero(rest, name);
        FirstAfter(rest, added, name);
      }
  }

  /** When `entries` has no entry for the space, the first one of
      `entries + [e]` is `e`. */
  lemma FirstAfter(entries: seq<IndexEntry>, e: IndexEntry, name: string)
    requires Find(entries, name).None?
    requires ForSpace(e.value, name)
    ensures Find(entries + [e], name) == Some(|entries|)
  {
    var s := entries + [e];
    assert forall j :: 0 <= j < |entries| ==> s[j] == entries[j];
    assert s[|entries|] == e;
  }
}

=== FILE: spaces.dfy ===
/** The Space class: opening a space (keyring consent, root-index
    reconciliation, exposing the reducers), the per-address cache of thread
    handles, and thread subscriptions kept as "thread-<address>" records in
    the public partition. Thread loading, address resolution and OrbitDB
    address validation are parameters. */
module Spaces {
  import opened Base
  import opened Strings
  import opened KeyValue
  import opened Reducers
  import opened Names
  import opened RootIndex
  import opened Identity

  /** A thread handle as the Space caches it. */
  datatype Thread = Thread(
    name: string,
    address: string,
    members: bool,
    firstModerator: Option<string>,
    autoSubscribe: bool)

  /** A Space instance. `isOpen` says whether open() has run (the store is
      loaded and `public`/`private` are set); `store` is the contents of the
      space's key-value store, taken as already synchronised. */
  datatype Space = Space(name: string, isOpen: bool, store: Store, activeThreads: map<string, Thread>)

  /** Every cached handle is cached under its own address. */
  ghost predicate WellKeyed(sp: Space)
  {
    forall a :: a in sp.activeThreads ==> sp.activeThreads[a].address == a
  }

  // ---------------------------------------------------------------------
  // open()

  /** The results of `open()`: the space, the identity and local storage after
      keyring derivation, the root index, and the flag passed to
      `consentCallback` (None when open() did nothing). */
  datatype Opened = Opened(space: Space, id: ThreeId, storage: Storage, rootIndex: seq<IndexEntry>, consent: Option<bool>)

  /** `space.open()`. `spaceAddress` is the address `_store._load()` returns,
      `did` is the space's sub-DID, and `newHash` the hash the root index gives
      an added entry. */
  function Open(sp: Space, id: ThreeId, storage: Storage, rootIndex: seq<IndexEntry>, auth: Auth,
                spaceAddress: string, did: string, newHash: string): (r: Opened)
    ensures sp.isOpen ==> r == Opened(sp, id, storage, rootIndex, None)
    ensures !sp.isOpen ==> r.space == sp.(isOpen := true)
    ensures !sp.isOpen ==> r.consent == Some(sp.name !in id.keyrings)
    ensures !sp.isOpen ==> sp.name in r.id.keyrings && r.id.keyrings.Keys == id.keyrings.Keys + {sp.name}
    ensures !sp.isOpen ==> r.rootIndex == Reconcile(rootIndex, sp.name, did, spaceAddress, newHash)
    ensures !sp.isOpen ==>
              && r.id == InitKeyringByName(id, storage, sp.name, auth).id
              && r.storage == InitKeyringByName(id, storage, sp.name, auth).storage
  {
    if sp.isOpen then Opened(sp, id, storage, rootIndex, None)
    else
      var k := InitKeyringByName(id, storage, sp.name, auth);
      Opened(sp.(isOpen := true), k.id, k.storage, Reconcile(rootIndex, sp.name, did, spaceAddress, newHash), Some(k.consented))
  }

  /** Opening an opened space again asks for no consent and changes nothing. */
  lemma OpenTwice(sp: Space, id: ThreeId, storage: Storage, rootIndex: seq<IndexEntry>, auth: Auth,
                  spaceAddress: string, did: string, newHash: string, auth2: Auth, did2: string, newHash2: string)
    ensures var first := Open(sp, id, storage, rootIndex, auth, spaceAddress, did, newHash);
            var second := Open(first.space, first.id, first.storage, first.rootIndex, auth2, spaceAddress, did2, newHash2);
            second == first.(consent := None)
  {
  }

  /** A store address that contains the space's store name. */
  lemma ContainsAfterPrefix(prefix: string, name: string)
    ensures Contains(prefix + NameToSpaceName(name), NameToSpaceName(name))
  {
    var s := prefix + NameToSpaceName(name);
    assert s[|prefix|..|prefix| + |NameToSpaceName(name)|] == NameToSpaceName(name);
    assert OccursAt(s, NameToSpaceName(name), |prefix|);
  }

  /** Opening a space whose store lives at "<prefix>3box.space.<name>.keyvalue"
      against a root index that lists it at most once leaves exactly one
      typed entry for it, which a later reconciliation keeps as it is. */
  lemma OpenRegistersSpaceOnce(sp: Space, id: ThreeId, storage: Storage, rootIndex: seq<IndexEntry>, auth: Auth,
                               prefix: string, did: string, newHash: string, newHash2: string)
    requires !sp.isOpen
    requires UniqueHashes(rootIndex) && CountFor(rootIndex, sp.name) <= 1
    ensures var address := prefix + NameToSpaceName(sp.name);
            var r := Open(sp, id, storage, rootIndex, auth, address, did, newHash);
            && CountFor(r.rootIndex, sp.name) == 1
            && Find(r.rootIndex, sp.name).Some?
            && IsTyped(r.rootIndex[Find(r.rootIndex, sp.name).value].value)
            && Reconcile(r.rootIndex, sp.name, did, address, newHash2) == r.rootIndex
  {
    var address := prefix + NameToSpaceName(sp.name);
    ContainsAfterPrefix(prefix, sp.name);
    assert ForSpace(SpaceRecord(did, address), sp.name);
    ReconcileIdempotent(rootIndex, sp.name, did, address, newHash, newHash2);
  }

  /** After opening, the identity resolves the space's store name
      "3box.space.<name>.keyvalue" to the keyring derived for the space
      (for a dot-free name and a fingerprint other than "3box"). */
  lemma OpenedKeyringResolves(sp: Space, id: ThreeId, storage: Storage, rootIndex: seq<IndexEntry>, auth: Auth,
                              spaceAddress: string, did: string, newHash: string)
    requires !sp.isOpen && '.' !in sp.name
    requires id.fingerprint != Some("3box")
    ensures var r := Open(sp, id, storage, rootIndex, auth, spaceAddress, did, newHash);
            GetKeyringBySpaceName(r.id, NameToSpaceName(sp.name)) == Some(r.id.keyrings[sp.name])
  {
    SpaceNameSegments(sp.name);
  }

  // ---------------------------------------------------------------------
  // Thread handles

  /** The options `joinThread`/`joinThreadByAddress` read. */
  datatype JoinOptions = JoinOptions(firstModerator: Option<string>, members: bool, noAutoSub: bool)

  /** The space after a join, the address the handle is cached under, and
      the handle. */
  datatype Joined = Joined(space: Space, key: string, thread: Thread)

  /** The first moderator `joinThread` uses: the option when truthy, the
      space's sub-DID otherwise. */
  function Moderator(opts: JoinOptions, subDid: string): (r: string)
    ensures opts.firstModerator.Some? && opts.firstModerator.value != "" ==> r == opts.firstModerator.value
    ensures opts.firstModerator.None? || opts.firstModerator.value == "" ==> r == subDid
  {
    if opts.firstModerator.Some? && opts.firstModerator.value != "" then opts.firstModerator.value else subDid
  }

  /** `joinThread(name, opts)`: the first moderator defaults to the space's
      sub-DID `subDid`; `addressOf` is `_getThreadAddress()` as a function of
      the thread's store name, members flag and first moderator. A handle
      already cached under the address is returned as it is. */
  function JoinThread(sp: Space, threadName: string, opts: JoinOptions, subDid: string,
                      addressOf: (string, bool, string) -> string): (r: Joined)
    ensures r.key == addressOf(NamesToThreadName(sp.name, threadName), opts.members, Moderator(opts, subDid))
    ensures r.key !in sp.activeThreads ==>
              r.thread.firstModerator == Some(Moderator(opts, subDid)) && r.thread.members == opts.members
    ensures r.key in r.space.activeThreads && r.space.activeThreads[r.key] == r.thread
    ensures r.space.(activeThreads := sp.activeThreads) == sp
    ensures WellKeyed(sp) ==> r.thread.address == r.key
    ensures r.key in sp.activeThreads ==> r.space == sp
    ensures r.key !in sp.activeThreads ==>
              && r.space.activeThreads == sp.activeThreads[r.key := r.thread]
              && r.thread.address == r.key
              && r.thread.name == NamesToThreadName(sp.name, threadName)
              && r.thread.autoSubscribe == !opts.noAutoSub
  {
    var moderator := Moderator(opts, subDid);
    var name := NamesToThreadName(sp.name, threadName);
    var address := addressOf(name, opts.members, moderator);
    if address in sp.activeThreads then Joined(sp, address, sp.activeThreads[address])
    else
      var thread := Thread(name, address, opts.members, Some(moderator), !opts.noAutoSub);
      Joined(sp.(activeThreads := sp.activeThreads[address := thread]), address, thread)
  }

  /** `joinThreadByAddress(address, opts)`: the address must be valid and its
      `.`-segment 2 must be this space's name; the thread name is segment 3. */
  function JoinThreadByAddress(sp: Space, address: string, opts: JoinOptions, isValid: string -> bool)
    : (r: Result<Joined>)
    ensures !isValid(address) ==> r == Err(InvalidAddress)
    ensures isValid(address) && Nth(Split(address, "."), 2) != Some(sp.name) ==> r == Err(CrossSpace)
    ensures r.Ok? <==> isValid(address) && Nth(Split(address, "."), 2) == Some(sp.name)
    ensures r.Ok? ==> r.value.key == address
    ensures r.Ok? ==> address in r.value.space.activeThreads && r.value.space.activeThreads[address] == r.value.thread
    ensures r.Ok? ==> r.value.space.(activeThreads := sp.activeThreads) == sp
    ensures r.Ok? && address in sp.activeThreads ==> r.value.space == sp
    ensures r.Ok? && address !in sp.activeThreads ==>
              && r.value.space.activeThreads == sp.activeThreads[address := r.value.thread]
              && r.value.thread.address == address
              && r.value.thread.name == NamesToThreadName(sp.name, Show(Nth(Split(address, "."), 3)))
              && r.value.thread.members == opts.members
              && r.value.thread.firstModerator == opts.firstModerator
              && r.value.thread.autoSubscribe == !opts.noAutoSub
  {
    if !isValid(address) then Err(InvalidAddress)
    else
      var parts := Split(address, ".");
      if Nth(parts, 2) != Some(sp.name) then Err(CrossSpace)
      else if address in sp.activeThreads then Ok(Joined(sp, address, sp.activeThreads[address]))
      else
        var name := NamesToThreadName(sp.name, Show(Nth(parts, 3)));
        var thread := Thread(name, address, opts.members, opts.firstModerator, !opts.noAutoSub);
        Ok(Joined(sp.(activeThreads := sp.activeThreads[address := thread]), address, thread))
  }

  /** Both ways of joining keep every handle cached under its own address. */
  lemma JoinKeepsWellKeyed(sp: Space, threadName: string, address: string, opts: JoinOptions, subDid: string,
                           addressOf: (string, bool, string) -> string, isValid: string -> bool)
    requires WellKeyed(sp)
    ensures WellKeyed(JoinThread(sp, threadName, opts, subDid, addressOf).space)
    ensures JoinThreadByAddress(sp, address, opts, isValid).Ok? ==>
              WellKeyed(JoinThreadByAddress(sp, address, opts, isValid).value.space)
  {
  }

  /** At most one handle per address: joining the same address again returns
      the handle the first join cached and changes nothing. */
  lemma JoinByAddressTwice(sp: Space, address: string, opts: JoinOptions, opts2: JoinOptions, isValid: string -> bool)
    ensures var first := JoinThreadByAddress(sp, address, opts, isValid);
            first.Ok? ==>
              var second := JoinThreadByAddress(first.value.space, address, opts2, isValid);
              second == Ok(first.value)
  {
  }

  /** Joining by name and then by the resolved address gives the same handle. */
  lemma JoinByNameThenAddress(sp: Space, threadName: string, opts: JoinOptions, opts2: JoinOptions, subDid: string,
                              addressOf: (string, bool, string) -> string, isValid: string -> bool)
    ensures var first := JoinThread(sp, threadName, opts, subDid, addressOf);
            var second := JoinThreadByAddress(first.space, first.key, opts2, isValid);
            second.Ok? ==> second.value == first
  {
  }

  /** A thread address "<prefix>3box.thread.<space>.<thread>" of this space
      (dot-free parts) is accepted when valid, and a new handle gets the
      thread's own store name. */
  lemma JoinOwnThreadAddress(sp: Space, prefix: string, threadName: string, opts: JoinOptions, isValid: string -> bool)
    requires '.' !in prefix && '.' !in sp.name && '.' !in threadName
    requires isValid(prefix + NamesToThreadName(sp.name, threadName))
    ensures var address := prefix + NamesToThreadName(sp.name, threadName);
            var r := JoinThreadByAddress(sp, address, opts, isValid);
            && r.Ok?
            && (address !in sp.activeThreads ==> r.value.thread.name == NamesToThreadName(sp.name, threadName))
  {
    ThreadAddressSegments(prefix, sp.name, threadName);
  }

  /** A thread address of another space is refused with CrossSpace and no
      handle is created. */
  lemma JoinOtherSpaceRefused(sp: Space, prefix: string, otherSpace: string, threadName: string,
                              opts: JoinOptions, isValid: string -> bool)
    requires '.' !in prefix && '.' !in otherSpace && '.' !in threadName
    requires otherSpace != sp.name
    requires isValid(prefix + NamesToThreadName(otherSpace, threadName))
    ensures JoinThreadByAddress(sp, prefix + NamesToThreadName(otherSpace, threadName), opts, isValid) == Err(CrossSpace)
  {
    ThreadAddressSegments(prefix, otherSpace, threadName);
  }

  /** The check `joinThreadByAddress` makes, as written, reads `.`-segments 2
      and 3 only, so a dotted space name shifts the segments: for dot-free
      `a`, `b`, `t`, space "a" accepts the thread "t" of space "a.b" and
      names it after "b". */
  lemma DottedSpaceAcceptsForeignThread(sp: Space, prefix: string, a: string, b: string, t: string,
                                        opts: JoinOptions, isValid: string -> bool)
    requires '.' !in prefix && '.' !in a && '.' !in b && '.' !in t
    requires sp.name == a
    requires isValid(prefix + NamesToThreadName(a + "." + b, t))
    ensures var address := prefix + NamesToThreadName(a + "." + b, t);
            var r := JoinThreadByAddress(sp, address, opts, isValid);
            && r.Ok?
            && (address !in sp.activeThreads ==> r.value.thread.name == NamesToThreadName(a, b))
  {
    var address := prefix + NamesToThreadName(a + "." + b, t);
    DottedAddressSegments(prefix, a, b, t);
    assert Nth(Split(address, "."), 2) == Some(a);
    assert Nth(Split(address, "."), 3) == Some(b);
  }

  /** The same misreading makes space "a.b" refuse its own thread "t". */
  lemma DottedSpaceRefusesOwnThread(sp: Space, prefix: string, a: string, b: string, t: string,
                                    opts: JoinOptions, isValid: string -> bool)
    requires '.' !in prefix && '.' !in a && '.' !in b && '.' !in t
    requires sp.name == a + "." + b
    requires isValid(prefix + NamesToThreadName(a + "." + b, t))
    ensures JoinThreadByAddress(sp, prefix + NamesToThreadName(a + "." + b, t), opts, isValid) == Err(CrossSpace)
  {
    var address := prefix + NamesToThreadName(a + "." + b, t);
    DottedAddressSegments(prefix, a, b, t);
    assert Nth(Split(address, "."), 2) == Some(a);
    assert |sp.name| > |a|;
  }

  /** The five segments of a thread address of space "a.b". */
  lemma DottedAddressSegments(prefix: string, a: string, b: string, t: string)
    requires '.' !in prefix && '.' !in a && '.' !in b && '.' !in t
    ensures Split(prefix + NamesToThreadName(a + "." + b, t), ".") == [prefix + "3box", "thread", a, b, t]
  {
    var spaceName := a + "." + b;
    assert Split(spaceName, ".") == [a, b] by {
      DotPair(a, b);
    }
    assert Split(prefix + NamesToThreadName(spaceName, t), ".")
           == [prefix + "3box", "thread"] + Split(spaceName, ".") + [t] by {
      ThreadAddressSplit(prefix, spaceName, t);
    }
    FiveSegments(prefix + "3box", "thread", a, b, t);
  }

  /** Sequence bookkeeping for `DottedAddressSegments`. */
  lemma FiveSegments(h: string, g: string, a: string, b: string, t: string)
    ensures [h, g] + [a, b] + [t] == [h, g, a, b, t]
  {
  }

  /** `joinThreadByAddress` with the space read as every segment between
      "thread" and the last one, and the thread name as the last segment;
      the same as the source's check whenever the space name has no dot. */
  function JoinThreadByAddressChecked(sp: Space, address: string, opts: JoinOptions, isValid: string -> bool)
    : (r: Result<Joined>)
    ensures !isValid(address) ==> r == Err(InvalidAddress)
    ensures r.Ok? <==>
              && isValid(address)
              && |Split(address, ".")| >= 4
              && Join(Split(address, ".")[2..|Split(address, ".")| - 1], ".") == sp.name
    ensures r.Ok? ==> r.value.key == address
    ensures r.Ok? ==> address in r.value.space.activeThreads && r.value.space.activeThreads[address] == r.value.thread
    ensures r.Ok? && address in sp.activeThreads ==> r.value.space == sp
    ensures r.Ok? && address !in sp.activeThreads ==>
              && r.value.space.activeThreads == sp.activeThreads[address := r.value.thread]
              && r.value.space.(activeThreads := sp.activeThreads) == sp
              && r.value.thread == Thread(NamesToThreadName(sp.name, Split(address, ".")[|Split(address, ".")| - 1]),
                                          address, opts.members, opts.firstModerator, !opts.noAutoSub)
  {
    if !isValid(address) then Err(InvalidAddress)
    else
      var parts := Split(address, ".");
      if |parts| < 4 || Join(parts[2..|parts| - 1], ".") != sp.name then Err(CrossSpace)
      else if address in sp.activeThreads then Ok(Joined(sp, address, sp.activeThreads[address]))
      else
        var name := NamesToThreadName(sp.name, parts[|parts| - 1]);
        var thread := Thread(name, address, opts.members, opts.firstModerator, !opts.noAutoSub);
        Ok(Joined(sp.(activeThreads := sp.activeThreads[address := thread]), address, thread))
  }

  /** A thread address regrouped around its first two dots. */
  lemma ThreadAddressRegroup(prefix: string, spaceName: string, threadName: string)
    ensures prefix + NamesToThreadName(spaceName, threadName)
            == (prefix + "3box") + "." + ("thread" + "." + (spaceName + "." + threadName))
  {
    ThreadNameShape(spaceName, threadName);
  }

  /** The segments of a thread address whose prefix and thread name are
      dot-free: the space name's own segments sit between "thread" and the
      thread name. */
  lemma ThreadAddressSplit(prefix: string, spaceName: string, threadName: string)
    requires '.' !in prefix && '.' !in threadName
    ensures Split(prefix + NamesToThreadName(spaceName, threadName), ".")
            == [prefix + "3box", "thread"] + Split(spaceName, ".") + [threadName]
  {
    var tail := spaceName + "." + threadName;
    var head := prefix + "3box";
    var mid := "thread" + "." + tail;
    var spaceParts := Split(spaceName, ".");
    assert Split(prefix + NamesToThreadName(spaceName, threadName), ".") == [head] + Split(mid, ".") by {
      ThreadAddressRegroup(prefix, spaceName, threadName);
      DotStep(head, mid);
    }
    assert Split(mid, ".") == ["thread"] + Split(tail, ".") by {
      DotStep("thread", tail);
    }
    assert Split(tail, ".") == spaceParts + [threadName] by {
      SplitAppendChar(spaceName, '.', threadName);
      SplitNoChar(threadName, '.');
    }
    SegmentsRegroup(head, "thread", spaceParts, threadName);
  }

  /** Sequence bookkeeping for `ThreadAddressSplit`. */
  lemma SegmentsRegroup(h: string, g: string, xs: seq<string>, t: string)
    ensures [h] + ([g] + (xs + [t])) == [h, g] + xs + [t]
  {
  }

  /** The corrected check accepts a valid thread address exactly when it
      belongs to this space, dotted space names included, and names a new
      handle after the thread. */
  lemma {:induction false} CheckedThreadAddress(sp: Space, prefix: string, spaceName: string, threadName: string,
                                                opts: JoinOptions, isValid: string -> bool)
    requires '.' !in prefix && '.' !in threadName
    requires isValid(prefix + NamesToThreadName(spaceName, threadName))
    ensures var address := prefix + NamesToThreadName(spaceName, threadName);
            var r := JoinThreadByAddressChecked(sp, address, opts, isValid);
            && (r.Ok? <==> spaceName == sp.name)
            && (r.Ok? && address !in sp.activeThreads ==> r.value.thread.name == NamesToThreadName(sp.name, threadName))
  {
    var address := prefix + NamesToThreadName(spaceName, threadName);
    var parts := Split(address, ".");
    ThreadAddressSplit(prefix, spaceName, threadName);
    SplitJoin(spaceName, ".");
    assert parts[2..|parts| - 1] == Split(spaceName, ".");
    assert parts[|parts| - 1] == threadName;
  }

  /** For dot-free names the corrected check and the source's agree. */
  lemma CheckedAgreesOnDotFreeNames(sp: Space, prefix: string, spaceName: string, threadName: string,
                                    opts: JoinOptions, isValid: string -> bool)
    requires '.' !in prefix && '.' !in sp.name && '.' !in spaceName && '.' !in threadName
    ensures var address := prefix + NamesToThreadName(spaceName, threadName);
            JoinThreadByAddressChecked(sp, address, opts, isValid) == JoinThreadByAddress(sp, address, opts, isValid)
  {
    ThreadAddressSegments(prefix, spaceName, threadName);
    SplitNoChar(spaceName, '.');
    var parts := [prefix + "3box", "thread", spaceName, threadName];
    assert parts[2..|parts| - 1] == [spaceName];
  }

  // ---------------------------------------------------------------------
  // Subscriptions

  /** The public key of a subscription record: `thread-${address}`. */
  function ThreadKey(address: string): (r: string)
    ensures |r| == |address| + 7
    ensures "thread" <= r && r[..7] == "thread-" && r[7..] == address
  {
    "thread-" + address
  }

  /** The record `Object.assign({}, config, { address })`. */
  function SubscriptionRecord(address: string, config: map<string, Value>): (r: Value)
    ensures r.Obj? && "address" in r.fields && r.fields["address"] == Str(address)
    ensures forall k :: k != "address" ==> (k in r.fields <==> k in config)
    ensures forall k :: k != "address" && k in config ==> r.fields[k] == config[k]
  {
    Obj(config["address" := Str(address)])
  }

  /** `subscribeThread(address, config)`: writes the record only when no
      truthy record is there. */
  function SubscribeThread(sp: Space, address: string, config: map<string, Value>, isValid: string -> bool)
    : (r: Result<Space>)
    ensures !isValid(address) ==> r == Err(InvalidAddress)
    ensures isValid(address) && !sp.isOpen ==> r == Err(NotOpen)
    ensures r.Ok? <==> isValid(address) && sp.isOpen
    ensures r.Ok? ==> r.value.(store := sp.store) == sp
    ensures r.Ok? ==> Present(PublicGet(r.value.store, Some(ThreadKey(address))))
    ensures r.Ok? && Present(PublicGet(sp.store, Some(ThreadKey(address)))) ==> r.value == sp
    ensures r.Ok? && !Present(PublicGet(sp.store, Some(ThreadKey(address)))) ==>
              PublicGet(r.value.store, Some(ThreadKey(address))) == Some(SubscriptionRecord(address, config))
    ensures r.Ok? ==> forall sk :: sk != PublicKey(Some(ThreadKey(address))) ==>
              Get(r.value.store, sk) == Get(sp.store, sk)
  {
    if !isValid(address) then Err(InvalidAddress)
    else if !sp.isOpen then Err(NotOpen)
    else
      var key := Some(ThreadKey(address));
      if Present(PublicGet(sp.store, key)) then Ok(sp)
      else Ok(sp.(store := PublicSet(sp.store, key, SubscriptionRecord(address, config)).value))
  }

  /** `unsubscribeThread(address)`: removes the record only when a truthy one
      is there. */
  function UnsubscribeThread(sp: Space, address: string): (r: Result<Space>)
    ensures r.Ok? <==> sp.isOpen
    ensures r.Err? ==> r.error == NotOpen
    ensures r.Ok? ==> r.value.(store := sp.store) == sp
    ensures r.Ok? ==> !Present(PublicGet(r.value.store, Some(ThreadKey(address))))
    ensures r.Ok? && !Present(PublicGet(sp.store, Some(ThreadKey(address)))) ==> r.value == sp
    ensures r.Ok? && Present(PublicGet(sp.store, Some(ThreadKey(address)))) ==>
              PublicGet(r.value.store, Some(ThreadKey(address))) == None
    ensures r.Ok? ==> forall sk :: sk != PublicKey(Some(ThreadKey(address))) ==>
              Get(r.value.store, sk) == Get(sp.store, sk)
  {
    if !sp.isOpen then Err(NotOpen)
    else
      var key := Some(ThreadKey(address));
      if Present(PublicGet(sp.store, key)) then Ok(sp.(store := PublicRemove(sp.store, key).value))
      else Ok(sp)
  }

  /** Subscribing twice is subscribing once, whatever the second config. */
  lemma SubscribeIdempotent(sp: Space, address: string, config: map<string, Value>, config2: map<string, Value>,
                            isValid: string -> bool)
    ensures var first := SubscribeThread(sp, address, config, isValid);
            first.Ok? ==> SubscribeThread(first.value, address, config2, isValid) == first
  {
  }

  /** Unsubscribing twice is unsubscribing once. */
  lemma UnsubscribeIdempotent(sp: Space, address: string)
    ensures var first := UnsubscribeThread(sp, address);
            first.Ok? ==> UnsubscribeThread(first.value, address) == first
  {
  }

  /** Unsubscribing after subscribing leaves no record for the address, so
      `subscribedThreads` cannot list one under its key. */
  lemma SubscribeThenUnsubscribe(sp: Space, address: string, config: map<string, Value>, isValid: string -> bool)
    requires SubscribeThread(sp, address, config, isValid).Ok?
    ensures var r := UnsubscribeThread(SubscribeThread(sp, address, config, isValid).value, address);
            && r.Ok?
            && ThreadKey(address) !in PublicAll(r.value.store)
  {
  }

  /** The record key lists a subscription: it starts with "thread" and the
      piece after the first "thread-" is a valid address. */
  predicate IsSubscriptionKey(key: string, isValid: string -> bool)
  {
    && "thread" <= key
    && var address := Nth(Split(key, "thread-"), 1);
       address.Some? && isValid(address.value)
  }

  /** The records of `all` whose keys, in iteration order `order`, list subscriptions. */
  function Subscriptions(all: map<string, Value>, order: seq<string>, isValid: string -> bool): (r: seq<Value>)
    requires forall i :: 0 <= i < |order| ==> order[i] in all
    ensures |r| <= |order|
    ensures forall v :: v in r ==>
              exists i :: 0 <= i < |order| && IsSubscriptionKey(order[i], isValid) && all[order[i]] == v
    ensures forall i :: 0 <= i < |order| && IsSubscriptionKey(order[i], isValid) ==> all[order[i]] in r
    decreases |order|
  {
    if |order| == 0 then []
    else
      var n := |order| - 1;
      var prev := Subscriptions(all, order[..n], isValid);
      assert forall i :: 0 <= i < n ==> order[..n][i] == order[i];
      if IsSubscriptionKey(order[n], isValid) then prev + [all[order[n]]] else prev
  }

  /** One more key in the iteration order adds at most its own record, at
      the end: the list keeps iteration order and holds one record per
      subscription key. */
  lemma SubscriptionsAppend(all: map<string, Value>, order: seq<string>, k: string,
                            isValid: string -> bool)
    requires forall i :: 0 <= i < |order| ==> order[i] in all
    requires k in all
    ensures Subscriptions(all, order + [k], isValid)
            == Subscriptions(all, order, isValid) + (if IsSubscriptionKey(k, isValid) then [all[k]] else [])
  {
  }

  /** `subscribedThreads()`: the public records listing subscriptions, others
      silently dropped. `order` is the iteration order of `public.all()`. */
  function SubscribedThreads(sp: Space, order: seq<string>, isValid: string -> bool): (r: Result<seq<Value>>)
    requires Enumerates(order, PublicAll(sp.store).Keys)
    ensures r.Ok? <==> sp.isOpen
    ensures r.Err? ==> r.error == NotOpen
    ensures r.Ok? ==> forall v :: v in r.value <==>
              exists k :: k in PublicAll(sp.store) && IsSubscriptionKey(k, isValid) && PublicAll(sp.store)[k] == v
  {
    if !sp.isOpen then Err(NotOpen)
    else
      var all := PublicAll(sp.store);
      var r := Subscriptions(all, order, isValid);
      assert forall k :: k in all && IsSubscriptionKey(k, isValid) ==> all[k] in r by {
        forall k | k in all && IsSubscriptionKey(k, isValid)
          ensures all[k] in r
        {
          var i :| 0 <= i < |order| && order[i] == k;
        }
      }
      Ok(r)
  }

  /** The record key of an address with no "thread-" inside it lists the
      address itself. */
  lemma ThreadKeySplits(address: string)
    requires IndexOf(address, "thread-").None?
    ensures Split(ThreadKey(address), "thread-") == ["", address]
  {
    SplitFirst("", "thread-", address);
    assert "" + "thread-" + address == ThreadKey(address);
  }

  /** A subscription made through `subscribeThread` is listed by
      `subscribedThreads` (for an address with no "thread-" inside it). */
  lemma SubscribedIsListed(sp: Space, address: string, config: map<string, Value>, isValid: string -> bool,
                           order: seq<string>)
    requires IndexOf(address, "thread-").None?
    requires SubscribeThread(sp, address, config, isValid).Ok?
    requires Enumerates(order, PublicAll(SubscribeThread(sp, address, config, isValid).value.store).Keys)
    ensures var r := SubscribeThread(sp, address, config, isValid).value;
            && ThreadKey(address) in PublicAll(r.store)
            && PublicAll(r.store)[ThreadKey(address)] in SubscribedThreads(r, order, isValid).value
  {
    var r := SubscribeThread(sp, address, config, isValid).value;
    ThreadKeySplits(address);
    assert IsSubscriptionKey(ThreadKey(address), isValid);
    assert PublicGet(r.store, Some(ThreadKey(address))).Some?;
  }
}

=== FILE: strings.dfy ===
/** The string operations the source relies on: `indexOf`, `split`,
    `startsWith` (Dafny's sequence-prefix `<=`) and `toLowerCase`. */
module Strings {
  import opened Base

  /** `sep` occurs in `s` starting at index `j`. */
  predicate OccursAt(s: string, sep: string, j: nat)
  {
    j + |sep| <= |s| && s[j..j + |sep|] == sep
  }

  /** `s.indexOf(sep, from)`, with None standing for JavaScript's -1. */
  function IndexFrom(s: string, sep: string, from: nat): (r: Option<nat>)
    requires |sep| > 0
    ensures r.Some? ==> from <= r.value && OccursAt(s, sep, r.value)
    ensures r.Some? ==> forall j: nat :: from <= j < r.value ==> !OccursAt(s, sep, j)
    ensures r.None? ==> forall j: nat :: from <= j ==> !OccursAt(s, sep, j)
    decreases |s| - from
  {
    if |s| < from + |sep| then None
    else if s[from..from + |sep|] == sep then Some(from)
    else IndexFrom(s, sep, from + 1)
  }

  /** `s.indexOf(sep)`: the first occurrence of `sep` in `s`. */
  function IndexOf(s: string, sep: string): (r: Option<nat>)
    requires |sep| > 0
  {
    IndexFrom(s, sep, 0)
  }

  /** `s.indexOf(sub) !== -1` */
  predicate Contains(s: string, sub: string)
    requires |sub| > 0
  {
    IndexOf(s, sub).Some?
  }

  /** `s.split(sep)` for a non-empty separator: the pieces between
      successive non-overlapping occurrences, scanning from the left. */
  function Split(s: string, sep: string): (parts: seq<string>)
    requires |sep| > 0
    decreases |s|
  {
    match IndexOf(s, sep)
    case None => [s]
    case Some(i) => [s[..i]] + Split(s[i + |sep|..], sep)
  }

  /** `parts.join(sep)`, the inverse of Split. */
  function Join(parts: seq<string>, sep: string): string
  {
    if |parts| == 0 then ""
    else if |parts| == 1 then parts[0]
    else parts[0] + sep + Join(parts[1..], sep)
  }

  /** `parts[k]`, which is undefined past the end. */
  function Nth(parts: seq<string>, k: nat): (r: Option<string>)
  {
    if k < |parts| then Some(parts[k]) else None
  }

  /** Joining the pieces of a split with the same separator gives back the string. */
  lemma {:induction false} SplitJoin(s: string, sep: string)
    requires |sep| > 0
    ensures |Split(s, sep)| >= 1
    ensures Join(Split(s, sep), sep) == s
    decreases |s|
  {
    var first := IndexOf(s, sep);
    if first.Some? {
      var i := first.value;
      var rest := s[i + |sep|..];
      SplitUnfold(s, sep, i);
      SplitJoin(rest, sep);
      JoinCons(s[..i], Split(rest, sep), sep);
      Decompose(s, sep, i);
    }
  }

  /** One step of Split at the first occurrence `i`. */
  lemma SplitUnfold(s: string, sep: string, i: nat)
    requires |sep| > 0 && IndexOf(s, sep) == Some(i)
    ensures i + |sep| <= |s|
    ensures Split(s, sep) == [s[..i]] + Split(s[i + |sep|..], sep)
  {
  }

  /** A string cut around an occurrence of `sep`. */
  lemma Decompose(s: string, sep: string, i: nat)
    requires OccursAt(s, sep, i)
    ensures s == s[..i] + sep + s[i + |sep|..]
  {
    assert s == s[..i] + s[i..i + |sep|] + s[i + |sep|..];
  }

  lemma JoinCons(p: string, rest: seq<string>, sep: string)
    requires |rest| >= 1
    ensures Join([p] + rest, sep) == p + sep + Join(rest, sep)
  {
    assert ([p] + rest)[1..] == rest;
  }

  /** When the first occurrence of `sep` in `a + sep + b` is the one after
      `a`, splitting yields `a` followed by the pieces of `b`. */
  lemma SplitFirst(a: string, sep: string, b: string)
    requires |sep| > 0
    requires forall j: nat :: j < |a| ==> !OccursAt(a + sep + b, sep, j)
    ensures Split(a + sep + b, sep) == [a] + Split(b, sep)
  {
    var s := a + sep + b;
    assert s[|a|..|a| + |sep|] == sep;
    assert OccursAt(s, sep, |a|);
    assert IndexOf(s, sep) == Some(|a|);
    assert s[..|a|] == a;
    assert s[|a| + |sep|..] == b;
  }

  /** Splitting on one character that `a` does not contain. */
  lemma SplitFirstChar(a: string, c: char, b: string)
    requires c !in a
    ensures Split(a + [c] + b, [c]) == [a] + Split(b, [c])
  {
    var s := a + [c] + b;
    forall j: nat | j < |a|
      ensures !OccursAt(s, [c], j)
    {
      assert s[j] == a[j];
    }
    SplitFirst(a, [c], b);
  }

  /** No occurrence of `[c]` before `n` means no `c` in the first `n` characters. */
  lemma CharFreeBefore(x: string, c: char, n: nat)
    requires n <= |x|
    requires forall j: nat :: j < n ==> !OccursAt(x, [c], j)
    ensures c !in x[..n]
  {
    if c in x[..n] {
      var j :| 0 <= j < n && x[j] == c;
      assert OccursAt(x, [c], j);
    }
  }

  /** Splitting on one character distributes over a join at that character. */
  lemma {:induction false} SplitAppendChar(x: string, c: char, y: string)
    ensures Split(x + [c] + y, [c]) == Split(x, [c]) + Split(y, [c])
    decreases |x|
  {
    var first := IndexOf(x, [c]);
    if first.None? {
      CharFreeBefore(x, c, |x|);
      assert x[..|x|] == x;
      SplitFirstChar(x, c, y);
      SplitNoChar(x, c);
    } else {
      var i := first.value;
      var a, b := x[..i], x[i + 1..];
      CharFreeBefore(x, c, i);
      Decompose(x, [c], i);
      assert x == a + [c] + b;
      var rest := b + [c] + y;
      assert x + [c] + y == a + [c] + rest;
      SplitFirstChar(a, c, b);
      SplitFirstChar(a, c, rest);
      SplitAppendChar(b, c, y);
      calc {
        Split(x + [c] + y, [c]);
        Split(a + [c] + rest, [c]);
        [a] + Split(rest, [c]);
        [a] + (Split(b, [c]) + Split(y, [c]));
        ([a] + Split(b, [c])) + Split(y, [c]);
        Split(x, [c]) + Split(y, [c]);
      }
    }
  }

  /** A string without the separator character splits into itself alone. */
  lemma SplitNoChar(s: string, c: char)
    requires c !in s
    ensures Split(s, [c]) == [s]
  {
    forall j: nat
      ensures !OccursAt(s, [c], j)
    {
      if j + 1 <= |s| {
        assert s[j..j + 1] == [s[j]];
      }
    }
  }

  /** ASCII lower-casing of one character. */
  function LowerChar(c: char): char
  {
    if 'A' <= c <= 'Z' then (c as int - 'A' as int + 'a' as int) as char else c
  }

  /** `s.toLowerCase()`, restricted to ASCII letters. */
  function Lower(s: string): (r: string)
    ensures |r| == |s|
    ensures forall i :: 0 <= i < |s| ==> r[i] == LowerChar(s[i])
  {
    if |s| == 0 then "" else [LowerChar(s[0])] + Lower(s[1..])
  }

  /** Lower-casing twice is lower-casing once: a normalised address stays normalised. */
  lemma LowerIdempotent(s: string)
    ensures Lower(Lower(s)) == Lower(s)
  {
    assert forall i :: 0 <= i < |s| ==> LowerChar(LowerChar(s[i])) == LowerChar(s[i]);
  }

  /** A string with no upper-case ASCII letter is its own lower-casing. */
  lemma LowerOfLowercase(s: string)
    requires forall i :: 0 <= i < |s| ==> !('A' <= s[i] <= 'Z')
    ensures Lower(s) == s
  {
  }
}
